=== FILE: README.md ===
# Cheffy server: user, premium and recipe-payload logic in Dafny

This project models the pure logic inside the user and recipe handlers of the
Cheffy recipe-sharing backend and proves properties of it. It covers:

- **Social graph** (`user.service.ts`). `followUser` toggles a follow. It edits
  the actor's `following` list and the target's `followers` list, after
  checking three errors in a fixed order.
- **Suggestions** (`user.service.ts`). `getUnfollowedUsersForUser` excludes
  some users, scores each remaining candidate from 0 to 8, shuffles, and
  returns at most ten.
- **Profile update** (`user.service.ts`). `updateUser` spreads a partial
  payload over the stored document. It then runs the schema's pattern
  validators, because the update is issued with `runValidators: true`.
- **Schema validators and statics** (`user.model.ts`). These are the phone and
  email patterns, the password-change check on a token's issue time, premium
  activation, and the password-reset token's expiry.
- **Premium lifecycle**. A user is downgraded once the premium expiry is not
  after "now". This happens lazily when the profile is read (`getSingleUser`
  in `user.controller.ts`) or in bulk by the nightly job (`cron-job.ts`).
- **Recipe payload schema** (`recipe.validation.ts`). The schema is a parser
  from JSON to a typed payload. The two middlewares decide between passing
  the request on, answering 400, and answering 500.

The collection of users is a map from id to an immutable `User` record. Times
are integer milliseconds. The clock, the random reset token, the hash function
of its digest, and the order the shuffle produces are all parameters.

`recipe.router.ts` routes to `getFeedRecipes`, but `recipe.controller.ts` does
not define it. So the ranker is not part of this model, and neither are the
vote, rating and report handlers, which are also missing.

Files: `wrappers.dfy` (Option, Result), `user_types.dfy` (records, store,
errors), `validators.dfy`, `user_model.dfy`, `user_update.dfy`, `follow.dfy`,
`suggestions.dfy`, `premium.dfy`, `recipe_validation.dfy`.

## Model

| member | source | states |
|---|---|---|
| Validators.IsValidPhone | src/app/modules/User/user.model.ts:47 | a phone the pattern accepts has 2 to 16 characters, all of them digits except for one leading '+' |
| Validators.PhoneMatchesPattern | src/app/modules/User/user.model.ts:47 | the phone predicate accepts exactly the strings of the pattern: an optional '+' followed by one digit and then 1 to 14 more |
| Validators.PhoneExamples | src/app/modules/User/user.model.ts:47 | a leading 0 and a two-digit number are accepted; one digit, a lone '+', 16 digits, a doubled '+' and a dash are refused |
| Validators.IsValidEmail | src/app/modules/User/user.model.ts:26 | a non-empty email the pattern accepts has at least six characters, contains '@', does not start with '@' and ends in a letter, digit, '_' or '-' |
| Validators.LabelListMatchesPattern | src/app/modules/User/user.model.ts:26 | the character scan of the domain labels (starts with a label character, ends with '.', no "..") accepts exactly `([\w-]+\.)+` |
| Validators.EmailMatchesPattern | src/app/modules/User/user.model.ts:26 | the email predicate accepts exactly the empty string and the strings of the form local part, '@', dot-closed labels, 2 to 4 character final segment |
| Validators.EmailEmptyAccepted | src/app/modules/User/user.model.ts:26 | the empty email is accepted, because the whole pattern is one optional group |
| Validators.EmailExamples | src/app/modules/User/user.model.ts:26 | "a@b.co" matches; a one-character final segment, an empty local part and an empty label are refused |
| UserModel.IsJwtIssuedBeforePasswordChanged | src/app/modules/User/user.model.ts:141-148 | the token is judged issued before the change iff the change time in ms exceeds `iat * 1000`, strictly |
| UserModel.JwtCheckInSeconds | src/app/modules/User/user.model.ts:141-148 | the same check in whole seconds: the change lies in a later second than `iat`, or in the same second after its first millisecond |
| UserModel.JwtRejectsTokenIssuedBeforeChange | src/app/modules/User/user.model.ts:141-148 | a token issued at any millisecond before the change is always rejected |
| UserModel.JwtAcceptsTokenOfLaterSecond | src/app/modules/User/user.model.ts:141-148 | a token whose issue second is after the change's second is accepted |
| UserModel.JwtSameSecondExamples | src/app/modules/User/user.model.ts:141-148 | a change at exactly `iat * 1000` ms keeps the token; a change half a second into the token's second rejects it, even one issued after the change |
| UserModel.ActivatePremium | src/app/modules/User/user.model.ts:120-131 | an unknown id fails with "User not found"; otherwise the user becomes premium until now + 2 592 000 000 ms, and no other field or user changes |
| UserModel.ActivatePremiumAsWritten | src/app/modules/User/user.model.ts:120-131 | as written, a known user makes the static fail with a save error because the document read carries no password; with the password loaded it agrees with the intended activation on every modelled field |
| UserModel.StaticActivationNeverSucceeds | src/app/modules/User/user.model.ts:99-131 | as written, the static fails for every id, while the intended activation succeeds for every known user |
| UserModel.GeneratePasswordResetToken | src/app/modules/User/user.model.ts:151-159 | returns the raw token and sets on the document the hash of that same token, with an expiry of now + 600 000 ms; nothing else changes |
| UserModel.NewResetTokenSupersedes | src/app/modules/User/user.model.ts:151-159 | generating a second token leaves the document exactly as if only the second had been generated |
| UserUpdate.Merge | src/app/modules/User/user.service.ts:39-43 | every key of the payload overrides the stored field and every absent key leaves it unchanged |
| UserUpdate.OverridesIsFunctional | src/app/modules/User/user.service.ts:39-43 | that override rule determines the merged document uniquely |
| UserUpdate.MergeNoChange | src/app/modules/User/user.service.ts:39-43 | merging the empty payload is the identity |
| UserUpdate.MergeIdempotent | src/app/modules/User/user.service.ts:39-43 | merging the same payload twice equals merging it once |
| UserUpdate.MergeThen | src/app/modules/User/user.service.ts:39-43 | two successive merges equal one merge of the combined payload in which the later keys win |
| UserUpdate.ValidationErrors | src/app/modules/User/user.model.ts:20-49 | no message iff email and phone are both non-empty and match their patterns; an empty email or phone reports its `required` message ("Phone number is required" for the phone), a non-empty one that does not match reports its pattern message; at most two messages |
| UserUpdate.UpdateUser | src/app/modules/User/user.service.ts:29-52 | unknown id fails with "User not found"; it succeeds iff the merged document passes the validators; on success the merged document is stored and returned, and every other user is unchanged |
| UserUpdate.UpdateWithNoChange | src/app/modules/User/user.service.ts:39-49 | updating a valid user with the empty payload leaves the store as it was |
| UserUpdate.ActivatePremium | src/app/modules/User/user.service.ts:54-72 | unknown id fails with "User not found"; a known user is activated iff its stored email and phone pass their validators, so a user whose stored phone is empty or malformed is never activated; on success a premium user expiring now + 30 days is stored and returned, and every other user is unchanged |
| UserUpdate.ActivatePremiumAgrees | src/app/modules/User/user.service.ts:54-72 | for a user that passes validation, the service activation and the schema static store the same thing |
| Follow.RemoveId | src/app/modules/User/user.service.ts:101-103 | removal drops every entry with the id and keeps every other entry with its multiplicity |
| Follow.RemoveIdConcat | src/app/modules/User/user.service.ts:101-103 | removal distributes over concatenation, so the kept entries stay in their original order |
| Follow.RemoveIdAbsent | src/app/modules/User/user.service.ts:101-103 | a list with no entry for the id is unchanged |
| Follow.NewFollowing | src/app/modules/User/user.service.ts:97-111 | the actor's new list has an entry for the target iff the old one had none; entries for anyone else keep their multiplicity; a follow adds exactly one entry for the target |
| Follow.NewFollowers | src/app/modules/User/user.service.ts:97-117 | after an unfollow the target's list has no entry for the actor; entries for anyone else keep their multiplicity; a follow adds exactly one entry for the actor |
| Follow.WriteLists | src/app/modules/User/user.service.ts:119-121 | the two one-field writes set the actor's `following` and the target's `followers` and leave every other field and user unchanged, including when actor and target are the same user |
| Follow.FollowUser | src/app/modules/User/user.service.ts:76-125 | either id missing gives "User not found", then an incomplete target, then an incomplete actor; otherwise the choice depends only on the actor's `following`: an unfollow removes the entries from both lists, a follow appends one entry to each |
| Follow.FollowToggles | src/app/modules/User/user.service.ts:97-117 | for two known users with complete profiles, exactly the calls that succeed, the actor follows the target after the call iff it did not before |
| Follow.WriteListsRestore | src/app/modules/User/user.service.ts:119-121 | writing back the lists a store had undoes any earlier write of those lists |
| Follow.FollowThenUnfollow | src/app/modules/User/user.service.ts:97-121 | when the two lists agree about the pair, a follow followed by a second call restores the store exactly |
| Suggestions.Eligible | src/app/modules/User/user.service.ts:135-145 | a user passes the query iff it is not the requester, is not followed by the requester (the `$nin` over the mapped ids is the follow relation), is not blocked and is not an admin |
| Suggestions.TopicMatches | src/app/modules/User/user.service.ts:163-167 | the topic match count never exceeds the requester's number of topics |
| Suggestions.TopicMatchesCountsPositions | src/app/modules/User/user.service.ts:165 | the match count equals the number of positions of the requester's topic list whose topic the candidate also lists |
| Suggestions.Score | src/app/modules/User/user.service.ts:150-170 | every score lies between 0 and 8 |
| Suggestions.ScoreByComponents | src/app/modules/User/user.service.ts:150-167 | score = 3 for a set and equal city + 2 for a set and equal food habit + min(shared topic positions, 3) |
| Suggestions.TopScore | src/app/modules/User/user.service.ts:150-167 | the score is 8 iff city and food habit are set and equal and at least three topic positions are shared |
| Suggestions.RepeatedTopicCountsTwice | src/app/modules/User/user.service.ts:165 | a topic the requester lists twice counts twice |
| Suggestions.EligibleInOrder | src/app/modules/User/user.service.ts:138-147 | the query keeps exactly the users that pass the four exclusions, without repeats |
| Suggestions.EligibleInOrderCovers | src/app/modules/User/user.service.ts:138-147 | over an enumeration of the store, the query returns as many users as there are eligible ones |
| Suggestions.Pick | src/app/modules/User/user.service.ts:176-178 | the slice holds min(10, #eligible) distinct eligible users, and all of them when there are at most ten |
| Suggestions.Suggest | src/app/modules/User/user.service.ts:127-181 | an unknown requester fails with "User not found"; otherwise the result has min(10, #eligible) distinct users, never the requester, anyone followed, a blocked user or an admin, each with its score, and all eligible users when there are at most ten |
| Suggestions.AnySelectionReachable | src/app/modules/User/user.service.ts:172-178 | every choice of min(10, #eligible) distinct eligible users, in any order, is the result for some document order, so treating the shuffle as a parameter loses no outcome |
| Premium.Expired | src/app/modules/User/user.controller.ts:36 | a user is expired when premium with an expiry not after now; the controller's test and the job's query at cron-job.ts:10-13 select the same users, since a stored date is always truthy |
| Premium.Downgrade | src/app/modules/User/user.controller.ts:38-41 | a downgraded user is not premium and has no expiry; nothing else changes |
| Premium.DowngradePatchDowngrades | src/app/modules/User/user.controller.ts:38-44 | merging the downgrade payload is exactly the downgrade |
| Premium.DowngradedNeverExpired | src/app/modules/User/cron-job.ts:17-19 | a downgraded user is not expired at any time |
| Premium.ExpiredStaysExpired | src/app/modules/User/cron-job.ts:10-13 | expiry is monotone in time: expired now means expired later |
| Premium.ActivationLastsThirtyDays | src/app/modules/User/user.model.ts:120-131 | after activation at `now` the user is expired at `t` iff `t >= now + 2 592 000 000` |
| Premium.GetSingleUser | src/app/modules/User/user.controller.ts:28-54 | unknown id gives "User not found"; an expired user (expiry <= now) is stored downgraded; a user not expired leaves the store as it was; the response is the user as read; a user passing validation never errors |
| Premium.Swept | src/app/modules/User/cron-job.ts:10-21 | the intended sweep, which the job as written does not achieve (see "## Findings"), keeps the set of users, leaves no user expired, leaves users not expired unchanged, and turns off premium and clears the expiry of expired ones |
| Premium.ExpirePremiumUsers | src/app/modules/User/cron-job.ts:5-25 | after the loop no user is expired; users not expired are unchanged; expired users are downgraded |
| Premium.SweepIdempotent | src/app/modules/User/cron-job.ts:10-21 | a second run of the job changes nothing |
| Premium.LazyAgreesWithSweep | src/app/modules/User/user.controller.ts:36-45 | reading a user stores the document the nightly job would store if its saves succeeded |
| Premium.SweepAsWritten | src/app/modules/User/cron-job.ts:16-23 | the job as written keeps the set of users and leaves users it did not find unchanged; when the documents carry no password, as they never do, the store is unchanged |
| Premium.SweepWithPasswordsDowngradesFound | src/app/modules/User/cron-job.ts:16-21 | when every save succeeds, the loop downgrades exactly the users found and leaves the rest alone, on every modelled field |
| Premium.SweepWithPasswordsIsSwept | src/app/modules/User/cron-job.ts:10-21 | when every save succeeds, the loop over the query's result agrees with the intended sweep on every modelled field |
| Premium.SweepAsWrittenDowngradesNobody | src/app/modules/User/cron-job.ts:16-23 | a store with one expired premium user: after the job as written the user is still expired, after the intended sweep it is not |
| RecipeValidation.ParseIngredient | src/app/modules/Recipe/recipe.validation.ts:8-12 | an accepted ingredient has a non-empty name and amount |
| RecipeValidation.ParseIngredients | src/app/modules/Recipe/recipe.validation.ts:8-12 | an accepted ingredient list keeps its length and every element is well formed |
| RecipeValidation.ParseStep | src/app/modules/Recipe/recipe.validation.ts:13-16 | an accepted step has non-empty details and a positive time |
| RecipeValidation.ParseSteps | src/app/modules/Recipe/recipe.validation.ts:13-16 | an accepted step list keeps its length and every element is well formed |
| RecipeValidation.ParseRecipe | src/app/modules/Recipe/recipe.validation.ts:5-23 | every payload the schema accepts satisfies all of its constraints |
| RecipeValidation.ParseStrings | src/app/modules/Recipe/recipe.validation.ts:20 | an accepted tag list keeps its length |
| RecipeValidation.ParseStringsRoundTrip | src/app/modules/Recipe/recipe.validation.ts:20 | any list of tags sent as JSON parses back to itself |
| RecipeValidation.ParseIngredientsRoundTrip | src/app/modules/Recipe/recipe.validation.ts:8-12 | any list of well-formed ingredients sent as JSON parses back to itself |
| RecipeValidation.ParseStepsRoundTrip | src/app/modules/Recipe/recipe.validation.ts:13-16 | any list of well-formed steps sent as JSON parses back to itself |
| RecipeValidation.ParseRecipeRoundTrip | src/app/modules/Recipe/recipe.validation.ts:5-23 | every valid payload sent as JSON parses back to itself, so the schema accepts exactly the valid payloads |
| RecipeValidation.UnknownKeyIgnored | src/app/modules/Recipe/recipe.validation.ts:5 | a key the schema does not name does not change the parse |
| RecipeValidation.MissingRequiredKeyRejected | src/app/modules/Recipe/recipe.validation.ts:6-21 | a body lacking any required key is refused |
| RecipeValidation.RatingOutOfRangeRejected | src/app/modules/Recipe/recipe.validation.ts:19 | a numeric rating below 0 or above 5 is refused |
| RecipeValidation.ValidateRecipe | src/app/modules/Recipe/recipe.validation.ts:26-38 | `next` is called at most once, and exactly once iff the body is valid and no other error occurred; a schema failure answers 400 and any other error 500, neither calling `next` |
| RecipeValidation.ValidateUpdateRecipe | src/app/modules/Recipe/recipe.validation.ts:41-53 | the update middleware makes the same three-way decision |
| RecipeValidation.UpdateValidatesLikeCreate | src/app/modules/Recipe/recipe.validation.ts:41-53 | the update middleware behaves exactly like the create middleware on every body |
| RecipeValidation.PartialUpdateAnswered400 | src/app/modules/Recipe/recipe.validation.ts:41-53 | an update carrying only a title is answered 400 |

## Left out

- The feed ranker, vote, rating and report handlers: they are routed in `recipe.router.ts` but not defined in `recipe.controller.ts`.
- `createUser`, `getAllUsersFromDB` and `getSingleUserFromDB` are plain database calls. The last is modelled as a map lookup inside `GetSingleUser`. The query builder's search is not part of this model.
- `initiatePayment` and the AamarPay client: network I/O.
- `UserId` stands for a well-formed document id, and every lookup of an unknown id gives "User not found". A malformed id such as "abc" makes `findById` throw a cast error first, and the global error handler answers that with its cast-error response, not "User not found". In `followUser` this also holds for a malformed target id when the actor's id is well formed. Id syntax is not modelled.
- Database queries, `save`, `updateOne` and `findByIdAndUpdate` are modelled as map updates. Concurrent requests and races between the two reads of `followUser` are not modelled.
- Password hashing and comparison, JWT signing and verification, and the random bytes and SHA-256 digest of the reset token are foreign calls. The raw token and the hash function are parameters of `GeneratePasswordResetToken`.
- UserModel.GeneratePasswordResetToken: the schema declares neither `passwordResetToken` nor `passwordResetExpires`. Under the database library's default strict mode the two assignments live only on the in-memory document and are never persisted. The model returns that in-memory document and promises nothing about the store.
- The gate sequences of the auth service, the Express wiring, CORS, `validateRequest` and the global error handler are framework plumbing.
- The library checks `.email()` and `.url()` of the auth and user request schemas: their semantics live in the validation library.
- Suggestions.Suggest: the sort by score before the shuffle and the `Math.random` comparator of the shuffle are not modelled. The comparator is not a consistent ordering, so its output is a parameter listing every user once. `AnySelectionReachable` shows that every outcome the shuffle can produce is kept. How likely each outcome is is not modelled. That bias depends on the input order, which is where the sort by score leaves its trace.
- The cron schedule, `Date.now()` and `new Date()`: "now" is a parameter.
- Schema validators other than the `required` and `match` validators of email and phone: the role and status enums, the other required fields (`name`, `role`, `password`), and `unique`. Validation on `save()` is also not modelled.
- Premium.Swept: states what the job is evidently meant to leave behind. As written, the job downgrades nobody, because its first save throws; `SweepAsWritten` is the job as written.
- Premium.ExpirePremiumUsers: models the job with every save succeeding. As written, each `save()` runs the pre-save hook of `user.model.ts`, which hashes a `password` the document read by `find` does not carry, so the first save throws and the job ends; `SweepAsWritten` models that (see "## Findings"). The hook has no guard for an unchanged password, so even a document that did carry its password would have the stored hash replaced by a hash of that hash; the `password` field is not modelled, so agreement with the intended sweep holds on the modelled fields only.
- UserModel.ActivatePremium: models the static with its save succeeding. As written, the same pre-save hook makes the save throw on the document `findById` returns; `ActivatePremiumAsWritten` models that. With the password loaded, the unguarded hook would re-hash the stored hash; the `password` field is not modelled, so agreement holds on the modelled fields only. The service's `activatePremium` does not call the static: it goes through `updateUser`, which runs no save hook.
- UserUpdate.UpdateUser: a payload key set to `undefined` is modelled as clearing the field, which is what the object spread does. The database library's own treatment of `undefined` keys in an update is not modelled.
- Premium.GetSingleUser: the lazy downgrade's `premiumExpiryDate: undefined` is taken to clear the expiry, following the `UserUpdate.UpdateUser` line above. An update that dropped `undefined` keys would leave the old expiry in the store.
- Premium.LazyAgreesWithSweep: the agreement with the job rests on that same reading of `undefined`, as the job's `= undefined` unsets the field. If the update dropped `undefined` keys, the two would agree on `isPremium` only.
- RecipeValidation.ValidateRecipe: the list of schema issues sent in the 400 body is not modelled, only the status. String lengths count characters, where the validation library counts UTF-16 code units.
- The `password` field, `_id`, `createdAt`, `updatedAt` and the version key are not in the `User` record. The JavaScript `Date` range limit (Invalid Date beyond 8.64e15 ms) is not modelled.

## Findings

| source | as written | input that shows it | evidently intended | confidence | as-written member | corrected member |
|---|---|---|---|---|---|---|
| src/app/modules/User/cron-job.ts:16-23 | each `save()` runs the pre-save hook (user.model.ts:99-108), which hashes `user.password`; `find` does not load the `select: 0` password (user.model.ts:33), the hash rejects `undefined`, and the `catch` ends the loop at the first expired user | any store with an expired premium user, e.g. one premium user whose expiry 1000 has passed at 2000 (`Premium.SweepAsWrittenDowngradesNobody`) | every expired user is downgraded | not executed | Premium.SweepAsWritten | Premium.ExpirePremiumUsers |
| src/app/modules/User/user.model.ts:120-131 | the static's `save()` runs the same hook on a document `findById` read without its password, so it throws for every known user | any store holding the user id (`UserModel.StaticActivationNeverSucceeds`) | the user becomes premium for thirty days | not executed | UserModel.ActivatePremiumAsWritten | UserModel.ActivatePremium |

=== FILE: follow.dfy ===
/** `followUser`: one call toggles whether the actor follows the target,
    editing the actor's `following` list and the target's `followers` list. */
module Follow {
  import opened Wrappers
  import opened UserTypes

  /** The fields a follow entry copies must all be truthy. */
  predicate IsComplete(u: User) {
    u.name != "" && u.email != "" && Truthy(u.displayPicture)
  }

  /** Some entry of `u.following` carries the id `target`. */
  predicate IsFollowing(u: User, target: UserId) {
    exists i :: 0 <= i < |u.following| && u.following[i].id == target
  }

  /** The entry that records `u`, stored under `id`, in someone's list. */
  function EntryFor(id: UserId, u: User): (e: FollowEntry)
    ensures e.id == id && e.name == u.name && e.email == u.email
    ensures e.profilePicture == u.displayPicture
  {
    FollowEntry(id, u.name, u.email, u.displayPicture)
  }

  /** Drops every entry with id `id`; the others keep their order. */
  function RemoveId(entries: seq<FollowEntry>, id: UserId): (r: seq<FollowEntry>)
    ensures |r| <= |entries|
    ensures forall i :: 0 <= i < |r| ==> r[i].id != id
    ensures forall e :: multiset(r)[e] == (if e.id == id then 0 else multiset(entries)[e])
  {
    if |entries| == 0 then []
    else
      assert entries == [entries[0]] + entries[1..];
      if entries[0].id == id then RemoveId(entries[1..], id)
      else [entries[0]] + RemoveId(entries[1..], id)
  }

  /** Removal works piecewise: removing from a concatenation concatenates the
      removals, so the survivors stay in their original order. */
  lemma {:induction false} RemoveIdConcat(a: seq<FollowEntry>, b: seq<FollowEntry>, id: UserId)
    ensures RemoveId(a + b, id) == RemoveId(a, id) + RemoveId(b, id)
    decreases |a|
  {
    if |a| == 0 {
      assert a + b == b;
    } else {
      assert (a + b)[1..] == a[1..] + b;
      RemoveIdConcat(a[1..], b, id);
    }
  }

  /** A list without the id comes back unchanged. */
  lemma {:induction false} RemoveIdAbsent(entries: seq<FollowEntry>, id: UserId)
    requires forall i :: 0 <= i < |entries| ==> entries[i].id != id
    ensures RemoveId(entries, id) == entries
    decreases |entries|
  {
    if |entries| > 0 {
      RemoveIdAbsent(entries[1..], id);
      assert entries == [entries[0]] + entries[1..];
    }
  }

  /** What a successful call returns: the store after both writes, and the
      two documents as the handler left them in memory. */
  datatype FollowOutcome = FollowOutcome(store: Store, user: User, targetUser: User)

  /** The `following` list the call writes for the actor. */
  function NewFollowing(u: User, t: User, targetUserId: UserId): (r: seq<FollowEntry>)
    ensures (exists i :: 0 <= i < |r| && r[i].id == targetUserId) <==> !IsFollowing(u, targetUserId)
    ensures forall e: FollowEntry :: e.id != targetUserId ==> multiset(r)[e] == multiset(u.following)[e]
    ensures !IsFollowing(u, targetUserId) ==>
              multiset(r)[EntryFor(targetUserId, t)] == multiset(u.following)[EntryFor(targetUserId, t)] + 1
  {
    if IsFollowing(u, targetUserId) then RemoveId(u.following, targetUserId)
    else u.following + [EntryFor(targetUserId, t)]
  }

  /** The `followers` list the call writes for the target. The choice between
      removing and appending is made on the actor's list only. */
  function NewFollowers(u: User, t: User, userId: UserId, targetUserId: UserId): (r: seq<FollowEntry>)
    ensures IsFollowing(u, targetUserId) ==> forall i :: 0 <= i < |r| ==> r[i].id != userId
    ensures forall e: FollowEntry :: e.id != userId ==> multiset(r)[e] == multiset(t.followers)[e]
    ensures !IsFollowing(u, targetUserId) ==>
              multiset(r)[EntryFor(userId, u)] == multiset(t.followers)[EntryFor(userId, u)] + 1
  {
    if IsFollowing(u, targetUserId) then RemoveId(t.followers, userId)
    else t.followers + [EntryFor(userId, u)]
  }

  /** `a` and `b` differ at most in their two follow lists. */
  predicate SameExceptLists(a: User, b: User) {
    a.(following := b.following, followers := b.followers) == b
  }

  /** The two single-field writes: the actor's `following`, then the
      target's `followers`. When the two ids coincide both land on the one
      document. */
  function WriteLists(store: Store, userId: UserId, targetUserId: UserId,
                      following: seq<FollowEntry>, followers: seq<FollowEntry>): (s: Store)
    requires userId in store && targetUserId in store
    ensures s.Keys == store.Keys
    ensures s[userId].following == following
    ensures s[targetUserId].followers == followers
    ensures forall k :: k in store ==> SameExceptLists(s[k], store[k])
    ensures forall k :: k in store && k != userId ==> s[k].following == store[k].following
    ensures forall k :: k in store && k != targetUserId ==> s[k].followers == store[k].followers
  {
    var afterFirst := store[userId := store[userId].(following := following)];
    afterFirst[targetUserId := afterFirst[targetUserId].(followers := followers)]
  }

  /** Follows `targetUserId` when the actor does not follow it yet, and
      unfollows it otherwise. Errors, in the order they are checked: either
      id unknown, the target incomplete, the actor incomplete. */
  function FollowUser(store: Store, userId: UserId, targetUserId: UserId)
    : (r: Result<FollowOutcome, Error>)
    ensures userId !in store || targetUserId !in store ==> r == Err(UserNotFound)
    ensures userId in store && targetUserId in store && !IsComplete(store[targetUserId])
            ==> r == Err(TargetUserIncomplete)
    ensures (&& userId in store && targetUserId in store
             && IsComplete(store[targetUserId]) && !IsComplete(store[userId]))
            ==> r == Err(UserIncomplete)
    ensures (&& userId in store && targetUserId in store
             && IsComplete(store[targetUserId]) && IsComplete(store[userId]))
            ==> r.Ok?
    // unfollow
    ensures r.Ok? && IsFollowing(store[userId], targetUserId) ==>
              && r.value.user.following == RemoveId(store[userId].following, targetUserId)
              && r.value.targetUser.followers == RemoveId(store[targetUserId].followers, userId)
    // follow
    ensures r.Ok? && !IsFollowing(store[userId], targetUserId) ==>
              && r.value.user.following
                 == store[userId].following + [EntryFor(targetUserId, store[targetUserId])]
              && r.value.targetUser.followers
                 == store[targetUserId].followers + [EntryFor(userId, store[userId])]
    // what is returned, and what is stored
    ensures r.Ok? ==> r.value.user == store[userId].(following := r.value.user.following)
    ensures r.Ok? ==> r.value.targetUser
                      == store[targetUserId].(followers := r.value.targetUser.followers)
    ensures r.Ok? ==> r.value.store == WriteLists(store, userId, targetUserId,
                                                  r.value.user.following,
                                                  r.value.targetUser.followers)
  {
    if userId !in store || targetUserId !in store then Err(UserNotFound)
    else
      var u := store[userId];
      var t := store[targetUserId];
      if !IsComplete(t) then Err(TargetUserIncomplete)
      else if !IsComplete(u) then Err(UserIncomplete)
      else
        var following := NewFollowing(u, t, targetUserId);
        var followers := NewFollowers(u, t, userId, targetUserId);
        Ok(FollowOutcome(WriteLists(store, userId, targetUserId, following, followers),
                         u.(following := following), t.(followers := followers)))
  }

  /** Each successful call flips whether the actor follows the target. */
  lemma FollowToggles(store: Store, userId: UserId, targetUserId: UserId)
    requires userId in store && targetUserId in store
    requires IsComplete(store[userId]) && IsComplete(store[targetUserId])
    ensures var s := FollowUser(store, userId, targetUserId).value.store;
            IsFollowing(s[userId], targetUserId) <==> !IsFollowing(store[userId], targetUserId)
  {
    var s := FollowUser(store, userId, targetUserId).value.store;
    if !IsFollowing(store[userId], targetUserId) {
      var f := s[userId].following;
      assert f[|f| - 1].id == targetUserId;
    }
  }

  /** The two lists agree about the pair: the actor's `following` has an entry
      for the target exactly when the target's `followers` has one for the
      actor. */
  predicate Consistent(store: Store, userId: UserId, targetUserId: UserId)
    requires userId in store && targetUserId in store
  {
    IsFollowing(store[userId], targetUserId)
    <==> (exists i :: 0 <= i < |store[targetUserId].followers|
                      && store[targetUserId].followers[i].id == userId)
  }

  /** Writing back the lists a store had before undoes any write of lists. */
  lemma WriteListsRestore(store: Store, userId: UserId, targetUserId: UserId,
                          following: seq<FollowEntry>, followers: seq<FollowEntry>)
    requires userId in store && targetUserId in store
    ensures var once := WriteLists(store, userId, targetUserId, following, followers);
            WriteLists(once, userId, targetUserId,
                       store[userId].following, store[targetUserId].followers) == store
  {
    var once := WriteLists(store, userId, targetUserId, following, followers);
    var twice := WriteLists(once, userId, targetUserId,
                            store[userId].following, store[targetUserId].followers);
    forall k | k in store ensures twice[k] == store[k] {
      assert SameExceptLists(once[k], store[k]);
      assert SameExceptLists(twice[k], once[k]);
    }
    assert twice == store;
  }

  /** Following and then unfollowing restores the store exactly, when the
      two lists agreed beforehand. */
  lemma FollowThenUnfollow(store: Store, userId: UserId, targetUserId: UserId)
    requires userId in store && targetUserId in store
    requires IsComplete(store[userId]) && IsComplete(store[targetUserId])
    requires !IsFollowing(store[userId], targetUserId)
    requires Consistent(store, userId, targetUserId)
    ensures FollowUser(store, userId, targetUserId).Ok?
    ensures var once := FollowUser(store, userId, targetUserId).value.store;
            FollowUser(once, userId, targetUserId).Ok?
            && FollowUser(once, userId, targetUserId).value.store == store
  {
    var u := store[userId];
    var t := store[targetUserId];
    var first := FollowUser(store, userId, targetUserId).value;
    var once := first.store;
    var eT := EntryFor(targetUserId, t);
    var eU := EntryFor(userId, u);
    assert once[userId].following == u.following + [eT];
    assert once[targetUserId].followers == t.followers + [eU];
    assert SameExceptLists(once[userId], u) && SameExceptLists(once[targetUserId], t);
    assert once[userId].following[|u.following|] == eT;
    assert IsFollowing(once[userId], targetUserId);
    assert IsComplete(once[userId]) && IsComplete(once[targetUserId]);
    var second := FollowUser(once, userId, targetUserId).value;
    RemoveIdConcat(u.following, [eT], targetUserId);
    RemoveIdAbsent(u.following, targetUserId);
    RemoveIdConcat(t.followers, [eU], userId);
    RemoveIdAbsent(t.followers, userId);
    assert second.user.following == u.following;
    assert second.targetUser.followers == t.followers;
    WriteListsRestore(store, userId, targetUserId,
                      first.user.following, first.targetUser.followers);
  }
}

=== FILE: premium.dfy ===
/** The premium lifecycle. Activation makes a user premium with an expiry
    date; once the expiry is not after "now" the user is downgraded, either
    when the profile is read (`getSingleUser`) or by the nightly job. */
module Premium {
  import opened Wrappers
  import opened UserTypes
  import UserModel
  import opened UserUpdate

  /** Premium, with an expiry date that is not after `now`. An expiry equal
      to `now` has passed. */
  predicate Expired(u: User, now: int) {
    u.isPremium && u.premiumExpiryDate.Some? && u.premiumExpiryDate.value <= now
  }

  /** `{ isPremium: false, premiumExpiryDate: undefined }`. */
  const DowngradePatch: Patch := NoChange.(isPremium := Put(false), premiumExpiryDate := Put(None))

  /** What a downgrade leaves of a user: not premium, no expiry date, the
      rest as it was. */
  function Downgrade(u: User): (d: User)
    ensures !d.isPremium && d.premiumExpiryDate == None
    ensures d.(isPremium := u.isPremium, premiumExpiryDate := u.premiumExpiryDate) == u
  {
    u.(isPremium := false, premiumExpiryDate := None)
  }

  lemma DowngradePatchDowngrades(u: User)
    ensures Merge(u, DowngradePatch) == Downgrade(u)
  {
  }

  /** A downgraded user is expired at no time. */
  lemma DowngradedNeverExpired(u: User, t: int)
    ensures !Expired(Downgrade(u), t)
  {
  }

  /** Once expired, a user stays expired at every later time. */
  lemma ExpiredStaysExpired(u: User, now: int, later: int)
    requires Expired(u, now) && now <= later
    ensures Expired(u, later)
  {
  }

  /** A fresh activation lasts thirty days: the user is not expired before
      the thirtieth day is over and is expired from then on. */
  lemma ActivationLastsThirtyDays(store: Store, userId: UserId, now: int, t: int)
    requires userId in store
    ensures var s := UserModel.ActivatePremium(store, userId, now).value;
            Expired(s[userId], t) <==> t >= now + 2_592_000_000
  {
  }

  // ---------------------------------------------------------------------
  // getSingleUser: the lazy downgrade
  // ---------------------------------------------------------------------

  /** Reads a user. When the user is expired at `now` the stored document is
      downgraded through `UpdateUser`, but the response carries the document
      as it was read. Fails with "User not found" for an unknown id, and
      with the update's error when the downgrade does not pass validation. */
  function GetSingleUser(store: Store, userId: UserId, now: int): (r: Result<(Store, User), Error>)
    ensures userId !in store <==> r == Err(UserNotFound)
    ensures r.Ok? ==> r.value.1 == store[userId]
    ensures r.Ok? ==> r.value.0.Keys == store.Keys
    ensures r.Ok? ==> forall k :: k in store && k != userId ==> r.value.0[k] == store[k]
    ensures r.Ok? && Expired(store[userId], now) ==> r.value.0[userId] == Downgrade(store[userId])
    ensures userId in store && !Expired(store[userId], now) ==> r == Ok((store, store[userId]))
    ensures userId in store && PassesValidators(store[userId]) ==> r.Ok?
  {
    if userId !in store then Err(UserNotFound)
    else
      var user := store[userId];
      if Expired(user, now) then
        match UpdateUser(store, userId, DowngradePatch)
        case Err(e) => Err(e)
        case Ok((updated, _)) => Ok((updated, user))
      else Ok((store, user))
  }

  // ---------------------------------------------------------------------
  // The nightly job: the bulk downgrade
  // ---------------------------------------------------------------------

  /** The store after the job: every user expired at `now` downgraded, every
      other user as it was. */
  function Swept(store: Store, now: int): (s: Store)
    ensures s.Keys == store.Keys
    ensures forall k :: k in s ==> !Expired(s[k], now)
    ensures forall k :: k in store && !Expired(store[k], now) ==> s[k] == store[k]
    ensures forall k :: k in store && Expired(store[k], now) ==>
              !s[k].isPremium && s[k].premiumExpiryDate.None?
  {
    map k | k in store :: if Expired(store[k], now) then Downgrade(store[k]) else store[k]
  }

  /** The job's loop as intended: it finds the users expired at `now` and
      downgrades them one at a time, every save succeeding. */
  method ExpirePremiumUsers(store: Store, now: int) returns (s: Store)
    ensures s.Keys == store.Keys
    ensures forall k :: k in s ==> !Expired(s[k], now)
    ensures forall k :: k in store && !Expired(store[k], now) ==> s[k] == store[k]
    ensures forall k :: k in store && Expired(store[k], now) ==> s[k] == Downgrade(store[k])
    ensures s == Swept(store, now)
  {
    var expired := set k | k in store && Expired(store[k], now);
    var pending := expired;
    s := store;
    while pending != {}
      invariant pending <= expired
      invariant s.Keys == store.Keys
      invariant forall k :: k in store && k !in expired ==> s[k] == store[k]
      invariant forall k :: k in pending ==> s[k] == store[k]
      invariant forall k :: k in expired && k !in pending ==> s[k] == Downgrade(store[k])
      decreases pending
    {
      var k :| k in pending;
      s := s[k := Downgrade(s[k])];
      pending := pending - {k};
    }
  }

  /** A second run of the job changes nothing. */
  lemma SweepIdempotent(store: Store, now: int)
    ensures Swept(Swept(store, now), now) == Swept(store, now)
  {
    var once := Swept(store, now);
    forall k | k in once ensures !Expired(once[k], now) { }
  }

  /** The read and the intended job agree: reading an expired user leaves
      the stored document the job would leave if its saves succeeded. */
  lemma LazyAgreesWithSweep(store: Store, userId: UserId, now: int)
    requires GetSingleUser(store, userId, now).Ok?
    ensures GetSingleUser(store, userId, now).value.0[userId] == Swept(store, now)[userId]
  {
  }

  // ---------------------------------------------------------------------
  // The nightly job as written
  // ---------------------------------------------------------------------

  /** The job's loop as written, over `found`, the users the query returned.
      Each iteration downgrades the document in memory and calls `save()`,
      which first runs the schema's pre-save hook: the hook hashes the
      document's `password`, but a document `find` returns carries no
      password (the field is declared `select: 0`), the hash rejects
      `undefined`, and the save throws. The `catch` around the loop then
      ends the job. `passwordLoaded` says whether the documents read carry
      the field; as written they never do. */
  function SweepAsWritten(store: Store, found: seq<UserId>, passwordLoaded: bool): (s: Store)
    requires forall i :: 0 <= i < |found| ==> found[i] in store
    ensures s.Keys == store.Keys
    ensures forall k :: k in store && k !in found ==> s[k] == store[k]
    ensures !passwordLoaded ==> s == store
    decreases |found|
  {
    if |found| == 0 || !passwordLoaded then store
    else
      var k := found[0];
      SweepAsWritten(store[k := Downgrade(store[k])], found[1..], passwordLoaded)
  }

  /** With saves that succeed, the loop downgrades exactly the users found. */
  lemma {:induction false} SweepWithPasswordsDowngradesFound(store: Store, found: seq<UserId>)
    requires forall i :: 0 <= i < |found| ==> found[i] in store
    ensures SweepAsWritten(store, found, true)
            == map k | k in store :: if k in found then Downgrade(store[k]) else store[k]
    decreases |found|
  {
    if |found| > 0 {
      var k := found[0];
      var next := store[k := Downgrade(store[k])];
      SweepWithPasswordsDowngradesFound(next, found[1..]);
      assert forall j :: j in found <==> j == k || j in found[1..];
    }
  }

  /** With saves that succeed, the loop over the query's result is the
      intended sweep. */
  lemma SweepWithPasswordsIsSwept(store: Store, now: int, found: seq<UserId>)
    requires forall i :: 0 <= i < |found| ==> found[i] in store
    requires forall k :: k in store ==> (k in found <==> Expired(store[k], now))
    ensures SweepAsWritten(store, found, true) == Swept(store, now)
  {
    SweepWithPasswordsDowngradesFound(store, found);
  }

  /** As written, the job downgrades nobody: one premium user whose expiry
      has passed is still expired after the job, while the intended sweep
      downgrades it. */
  lemma SweepAsWrittenDowngradesNobody()
    ensures var u := User("Ann", Some("a.png"), "ann@example.com", "+8801700000000",
                          "USER", "ACTIVE", None, None, None, [], [], None, None, None,
                          0, true, Some(1000), None, None, None);
            var store := map["ann" := u];
            && Expired(SweepAsWritten(store, ["ann"], false)["ann"], 2000)
            && !Expired(Swept(store, 2000)["ann"], 2000)
  {
  }
}

=== FILE: recipe_validation.dfy ===
/** The recipe payload schema and the two middlewares that apply it to a
    request body before a recipe is created or updated. */
module RecipeValidation {
  import opened Wrappers

  /** A parsed JSON request body. */
  datatype Json =
    | JNull
    | JBool(b: bool)
    | JNumber(n: real)
    | JString(s: string)
    | JArray(items: seq<Json>)
    | JObject(fields: map<string, Json>)

  // ---------------------------------------------------------------------
  // The payload the schema describes
  // ---------------------------------------------------------------------

  /** `kind` is the optional `type` key. */
  datatype Ingredient = Ingredient(name: string, amount: string, kind: Option<string>)

  datatype Step = Step(details: string, time: real)

  datatype RecipePayload = RecipePayload(
    title: string,
    description: string,
    ingredients: seq<Ingredient>,
    instructions: seq<Step>,
    image: string,
    cookingTime: real,
    rating: Option<real>,
    tags: Option<seq<string>>,
    authorId: string,
    premium: Option<bool>)

  predicate ValidIngredient(i: Ingredient) {
    |i.name| >= 1 && |i.amount| >= 1
  }

  predicate ValidStep(s: Step) {
    |s.details| >= 1 && s.time > 0.0
  }

  /** The schema's constraints on a payload of the right shape: the four
      strings non-empty, at least one ingredient and one step, each of them
      well formed, a positive cooking time, and a rating, when given, from
      0 to 5. */
  predicate ValidPayload(p: RecipePayload) {
    && |p.title| >= 1
    && |p.description| >= 1
    && |p.ingredients| >= 1
    && (forall i :: 0 <= i < |p.ingredients| ==> ValidIngredient(p.ingredients[i]))
    && |p.instructions| >= 1
    && (forall i :: 0 <= i < |p.instructions| ==> ValidStep(p.instructions[i]))
    && |p.image| >= 1
    && p.cookingTime > 0.0
    && (p.rating.Some? ==> 0.0 <= p.rating.value <= 5.0)
    && |p.authorId| >= 1
  }

  // ---------------------------------------------------------------------
  // Parsing a body against the schema
  // ---------------------------------------------------------------------

  function Lookup(fields: map<string, Json>, key: string): Option<Json> {
    if key in fields then Some(fields[key]) else None
  }

  /** `z.string().min(1)`. */
  function RequiredString(v: Option<Json>): (r: Option<string>)
    ensures r.Some? ==> |r.value| >= 1
  {
    if v.Some? && v.value.JString? && |v.value.s| >= 1 then Some(v.value.s) else None
  }

  /** `z.number().positive()`. */
  function PositiveNumber(v: Option<Json>): (r: Option<real>)
    ensures r.Some? ==> r.value > 0.0
  {
    if v.Some? && v.value.JNumber? && v.value.n > 0.0 then Some(v.value.n) else None
  }

  /** `z.string().optional()`: `Some(None)` for an absent key, `None` for a
      value of the wrong type. */
  function OptionalString(v: Option<Json>): Option<Option<string>> {
    if v.None? then Some(None)
    else if v.value.JString? then Some(Some(v.value.s))
    else None
  }

  /** `z.number().min(0).max(5).optional()`. */
  function OptionalRating(v: Option<Json>): (r: Option<Option<real>>)
    ensures r.Some? && r.value.Some? ==> 0.0 <= r.value.value <= 5.0
  {
    if v.None? then Some(None)
    else if v.value.JNumber? && 0.0 <= v.value.n <= 5.0 then Some(Some(v.value.n))
    else None
  }

  /** `z.boolean().optional()`. */
  function OptionalBool(v: Option<Json>): Option<Option<bool>> {
    if v.None? then Some(None)
    else if v.value.JBool? then Some(Some(v.value.b))
    else None
  }

  function ParseStrings(items: seq<Json>): (r: Option<seq<string>>)
    ensures r.Some? ==> |r.value| == |items|
  {
    if |items| == 0 then Some([])
    else if !items[0].JString? then None
    else
      match ParseStrings(items[1..])
      case None => None
      case Some(rest) => Some([items[0].s] + rest)
  }

  /** `z.array(z.string()).optional()`. */
  function OptionalStrings(v: Option<Json>): Option<Option<seq<string>>> {
    if v.None? then Some(None)
    else if !v.value.JArray? then None
    else
      match ParseStrings(v.value.items)
      case None => None
      case Some(ss) => Some(Some(ss))
  }

  function ParseIngredient(j: Json): (r: Option<Ingredient>)
    ensures r.Some? ==> ValidIngredient(r.value)
  {
    if !j.JObject? then None
    else
      var name := RequiredString(Lookup(j.fields, "name"));
      var amount := RequiredString(Lookup(j.fields, "amount"));
      var kind := OptionalString(Lookup(j.fields, "type"));
      if name.Some? && amount.Some? && kind.Some?
      then Some(Ingredient(name.value, amount.value, kind.value))
      else None
  }

  function ParseIngredients(items: seq<Json>): (r: Option<seq<Ingredient>>)
    ensures r.Some? ==> |r.value| == |items|
    ensures r.Some? ==> forall i :: 0 <= i < |r.value| ==> ValidIngredient(r.value[i])
  {
    if |items| == 0 then Some([])
    else
      match (ParseIngredient(items[0]), ParseIngredients(items[1..]))
      case (Some(x), Some(rest)) => Some([x] + rest)
      case _ => None
  }

  function ParseStep(j: Json): (r: Option<Step>)
    ensures r.Some? ==> ValidStep(r.value)
  {
    if !j.JObject? then None
    else
      var details := RequiredString(Lookup(j.fields, "details"));
      var time := PositiveNumber(Lookup(j.fields, "time"));
      if details.Some? && time.Some? then Some(Step(details.value, time.value)) else None
  }

  function ParseSteps(items: seq<Json>): (r: Option<seq<Step>>)
    ensures r.Some? ==> |r.value| == |items|
    ensures r.Some? ==> forall i :: 0 <= i < |r.value| ==> ValidStep(r.value[i])
  {
    if |items| == 0 then Some([])
    else
      match (ParseStep(items[0]), ParseSteps(items[1..]))
      case (Some(x), Some(rest)) => Some([x] + rest)
      case _ => None
  }

  /** `z.array(...).min(1)` around a parser of the elements. */
  function NonEmptyIngredients(v: Option<Json>): Option<seq<Ingredient>> {
    if v.Some? && v.value.JArray? && |v.value.items| >= 1
    then ParseIngredients(v.value.items) else None
  }

  function NonEmptySteps(v: Option<Json>): Option<seq<Step>> {
    if v.Some? && v.value.JArray? && |v.value.items| >= 1
    then ParseSteps(v.value.items) else None
  }

  /** `recipeSchema.parse`: the payload the body describes, or `None` when
      the body breaks the schema. Keys the schema does not name are
      dropped. */
  function ParseRecipe(body: Json): (r: Option<RecipePayload>)
    ensures r.Some? ==> ValidPayload(r.value)
  {
    if !body.JObject? then None
    else
      var f := body.fields;
      var title := RequiredString(Lookup(f, "title"));
      var description := RequiredString(Lookup(f, "description"));
      var ingredients := NonEmptyIngredients(Lookup(f, "ingredients"));
      var instructions := NonEmptySteps(Lookup(f, "instructions"));
      var image := RequiredString(Lookup(f, "image"));
      var cookingTime := PositiveNumber(Lookup(f, "cookingTime"));
      var rating := OptionalRating(Lookup(f, "rating"));
      var tags := OptionalStrings(Lookup(f, "tags"));
      var authorId := RequiredString(Lookup(f, "authorId"));
      var premium := OptionalBool(Lookup(f, "premium"));
      if && title.Some? && description.Some? && ingredients.Some? && instructions.Some?
         && image.Some? && cookingTime.Some? && rating.Some? && tags.Some?
         && authorId.Some? && premium.Some?
      then Some(RecipePayload(title.value, description.value, ingredients.value,
                              instructions.value, image.value, cookingTime.value,
                              rating.value, tags.value, authorId.value, premium.value))
      else None
  }

  // ---------------------------------------------------------------------
  // The body a payload is sent as
  // ---------------------------------------------------------------------

  function IngredientJson(i: Ingredient): Json {
    var base := map["name" := JString(i.name), "amount" := JString(i.amount)];
    JObject(if i.kind.Some? then base["type" := JString(i.kind.value)] else base)
  }

  function StepJson(s: Step): Json {
    JObject(map["details" := JString(s.details), "time" := JNumber(s.time)])
  }

  function IngredientsJson(xs: seq<Ingredient>): (r: seq<Json>)
    ensures |r| == |xs|
    ensures forall i :: 0 <= i < |xs| ==> r[i] == IngredientJson(xs[i])
  {
    seq(|xs|, i requires 0 <= i < |xs| => IngredientJson(xs[i]))
  }

  function StepsJson(xs: seq<Step>): (r: seq<Json>)
    ensures |r| == |xs|
    ensures forall i :: 0 <= i < |xs| ==> r[i] == StepJson(xs[i])
  {
    seq(|xs|, i requires 0 <= i < |xs| => StepJson(xs[i]))
  }

  function StringsJson(ss: seq<string>): (r: seq<Json>)
    ensures |r| == |ss|
  {
    seq(|ss|, i requires 0 <= i < |ss| => JString(ss[i]))
  }

  /** The JSON object of a payload; optional fields that are absent are left
      out. */
  function ToJson(p: RecipePayload): Json {
    var required := map[
      "title" := JString(p.title),
      "description" := JString(p.description),
      "ingredients" := JArray(IngredientsJson(p.ingredients)),
      "instructions" := JArray(StepsJson(p.instructions)),
      "image" := JString(p.image),
      "cookingTime" := JNumber(p.cookingTime),
      "authorId" := JString(p.authorId)];
    var withRating := if p.rating.Some? then required["rating" := JNumber(p.rating.value)] else required;
    var withTags := if p.tags.Some? then withRating["tags" := JArray(StringsJson(p.tags.value))] else withRating;
    JObject(if p.premium.Some? then withTags["premium" := JBool(p.premium.value)] else withTags)
  }

  lemma {:induction false} ParseStringsRoundTrip(ss: seq<string>)
    ensures ParseStrings(StringsJson(ss)) == Some(ss)
    decreases |ss|
  {
    if |ss| > 0 {
      assert StringsJson(ss)[1..] == StringsJson(ss[1..]);
      ParseStringsRoundTrip(ss[1..]);
      assert ss == [ss[0]] + ss[1..];
    }
  }

  lemma {:induction false} ParseIngredientsRoundTrip(xs: seq<Ingredient>)
    requires forall i :: 0 <= i < |xs| ==> ValidIngredient(xs[i])
    ensures ParseIngredients(IngredientsJson(xs)) == Some(xs)
    decreases |xs|
  {
    var js := IngredientsJson(xs);
    if |xs| > 0 {
      var tail := xs[1..];
      assert js[1..] == IngredientsJson(tail);
      ParseIngredientsRoundTrip(tail);
      assert ParseIngredient(js[0]) == Some(xs[0]);
      assert xs == [xs[0]] + tail;
    }
  }

  lemma {:induction false} ParseStepsRoundTrip(xs: seq<Step>)
    requires forall i :: 0 <= i < |xs| ==> ValidStep(xs[i])
    ensures ParseSteps(StepsJson(xs)) == Some(xs)
    decreases |xs|
  {
    var js := StepsJson(xs);
    if |xs| > 0 {
      var tail := xs[1..];
      assert js[1..] == StepsJson(tail);
      ParseStepsRoundTrip(tail);
      assert ParseStep(js[0]) == Some(xs[0]);
      assert xs == [xs[0]] + tail;
    }
  }

  /** The keys of a payload's JSON object and what each holds. */
  lemma ToJsonLookups(p: RecipePayload)
    ensures ToJson(p).JObject?
    ensures var f := ToJson(p).fields;
            && Lookup(f, "title") == Some(JString(p.title))
            && Lookup(f, "description") == Some(JString(p.description))
            && Lookup(f, "ingredients") == Some(JArray(IngredientsJson(p.ingredients)))
            && Lookup(f, "instructions") == Some(JArray(StepsJson(p.instructions)))
            && Lookup(f, "image") == Some(JString(p.image))
            && Lookup(f, "cookingTime") == Some(JNumber(p.cookingTime))
            && Lookup(f, "authorId") == Some(JString(p.authorId))
            && Lookup(f, "rating") == (if p.rating.Some? then Some(JNumber(p.rating.value)) else None)
            && Lookup(f, "tags")
               == (if p.tags.Some? then Some(JArray(StringsJson(p.tags.value))) else None)
            && Lookup(f, "premium")
               == (if p.premium.Some? then Some(JBool(p.premium.value)) else None)
  {
  }

  /** Every valid payload, sent as JSON, parses back to itself. Together with
      the contract of `ParseRecipe` this says the schema accepts exactly the
      valid payloads. */
  lemma ParseRecipeRoundTrip(p: RecipePayload)
    requires ValidPayload(p)
    ensures ParseRecipe(ToJson(p)) == Some(p)
  {
    ToJsonLookups(p);
    var f := ToJson(p).fields;
    ParseIngredientsRoundTrip(p.ingredients);
    ParseStepsRoundTrip(p.instructions);
    assert NonEmptyIngredients(Lookup(f, "ingredients")) == Some(p.ingredients);
    assert NonEmptySteps(Lookup(f, "instructions")) == Some(p.instructions);
    if p.tags.Some? {
      ParseStringsRoundTrip(p.tags.value);
    }
    assert OptionalStrings(Lookup(f, "tags")) == Some(p.tags);
    assert OptionalRating(Lookup(f, "rating")) == Some(p.rating);
    assert OptionalBool(Lookup(f, "premium")) == Some(p.premium);
  }

  /** The keys the schema names. */
  const SchemaKeys: set<string> := {"title", "description", "ingredients", "instructions",
                                    "image", "cookingTime", "rating", "tags", "authorId",
                                    "premium"}

  /** A key the schema does not name is ignored. */
  lemma UnknownKeyIgnored(fields: map<string, Json>, key: string, v: Json)
    requires key !in SchemaKeys
    ensures ParseRecipe(JObject(fields[key := v])) == ParseRecipe(JObject(fields))
  {
    var g := fields[key := v];
    forall k | k in SchemaKeys ensures Lookup(g, k) == Lookup(fields, k) { }
  }

  /** A body missing a required key is refused, so the update route, which
      applies the full schema, refuses a partial recipe. */
  lemma MissingRequiredKeyRejected(body: Json, key: string)
    requires body.JObject? && key !in body.fields
    requires key in {"title", "description", "ingredients", "instructions",
                     "image", "cookingTime", "authorId"}
    ensures ParseRecipe(body) == None
  {
  }

  /** A rating outside [0, 5] is refused whatever else the body holds. */
  lemma RatingOutOfRangeRejected(body: Json)
    requires body.JObject? && "rating" in body.fields
    requires body.fields["rating"].JNumber?
    requires body.fields["rating"].n < 0.0 || body.fields["rating"].n > 5.0
    ensures ParseRecipe(body) == None
  {
  }

  // ---------------------------------------------------------------------
  // The middlewares
  // ---------------------------------------------------------------------

  /** What a middleware did with a request: how often it called `next`, and
      the status of the response it sent, if it sent one. */
  datatype Response = Response(nextCalls: nat, status: Option<int>)

  const BAD_REQUEST: int := 400
  const INTERNAL_SERVER_ERROR: int := 500

  /** `validateRecipe`. `fault` says that parsing raised an error other than
      a schema violation. A valid body is passed on with one call to `next`;
      an invalid one is answered 400 and any other error 500, in both cases
      without calling `next`. */
  function ValidateRecipe(body: Json, fault: bool): (r: Response)
    ensures r.nextCalls <= 1
    ensures r.nextCalls == 1 <==> !fault && ParseRecipe(body).Some?
    ensures r.status.None? <==> r.nextCalls == 1
    ensures r.status == Some(400) <==> !fault && ParseRecipe(body).None?
    ensures r.status == Some(500) <==> fault
  {
    if fault then Response(0, Some(INTERNAL_SERVER_ERROR))
    else if ParseRecipe(body).Some? then Response(1, None)
    else Response(0, Some(BAD_REQUEST))
  }

  /** `validateUpdateRecipe`: the same full schema as for creation. */
  function ValidateUpdateRecipe(body: Json, fault: bool): (r: Response)
    ensures r.nextCalls == 1 <==> !fault && ParseRecipe(body).Some?
    ensures r.status == Some(400) <==> !fault && ParseRecipe(body).None?
    ensures r.status == Some(500) <==> fault
  {
    if fault then Response(0, Some(INTERNAL_SERVER_ERROR))
    else if ParseRecipe(body).Some? then Response(1, None)
    else Response(0, Some(BAD_REQUEST))
  }

  /** The update route treats every body as the create route does. */
  lemma UpdateValidatesLikeCreate(body: Json, fault: bool)
    ensures ValidateUpdateRecipe(body, fault) == ValidateRecipe(body, fault)
  {
  }

  /** A partial update, one carrying only some of the required keys, is
      answered 400. */
  lemma PartialUpdateAnswered400(title: string)
    ensures ValidateUpdateRecipe(JObject(map["title" := JString(title)]), false)
            == Response(0, Some(400))
  {
    MissingRequiredKeyRejected(JObject(map["title" := JString(title)]), "description");
  }
}

=== FILE: suggestions.dfy ===
/** `getUnfollowedUsersForUser`: the people a user might follow. The query
    excludes some users, every remaining user is scored against the
    requester, the list is shuffled, and at most ten are returned. */
module Suggestions {
  import opened Wrappers
  import opened UserTypes
  import Follow

  const MAX_SUGGESTIONS: nat := 10
  const CITY_POINTS: int := 3
  const FOOD_HABIT_POINTS: int := 2
  const MAX_TOPIC_POINTS: nat := 3

  function Min(a: int, b: int): int {
    if a <= b then a else b
  }

  // ---------------------------------------------------------------------
  // The query
  // ---------------------------------------------------------------------

  /** The ids of the entries in `u.following`. */
  function FollowingIds(u: User): (ids: seq<UserId>)
    ensures |ids| == |u.following|
    ensures forall i :: 0 <= i < |ids| ==> ids[i] == u.following[i].id
  {
    seq(|u.following|, i requires 0 <= i < |u.following| => u.following[i].id)
  }

  /** The query's four exclusions: not the requester, not someone the
      requester follows, not a blocked user, not an admin. */
  predicate Eligible(store: Store, userId: UserId, k: UserId)
    requires userId in store && k in store
    // `$nin` over the mapped ids excludes exactly the users the requester
    // follows.
    ensures Eligible(store, userId, k)
            <==> (&& k != userId
                  && !Follow.IsFollowing(store[userId], k)
                  && store[k].status != BLOCKED
                  && store[k].role != ADMIN)
  {
    && k != userId
    && k !in FollowingIds(store[userId])
    && store[k].status != BLOCKED
    && store[k].role != ADMIN
  }

  /** The ids of every user the query returns. */
  function EligibleIds(store: Store, userId: UserId): set<UserId>
    requires userId in store
  {
    set k | k in store && Eligible(store, userId, k)
  }

  // ---------------------------------------------------------------------
  // The score
  // ---------------------------------------------------------------------

  /** `current.filter(t => candidate.includes(t)).length`: how many entries of
      the requester's topic list, repeats included, the candidate also lists. */
  function TopicMatches(current: seq<string>, candidate: seq<string>): (n: nat)
    ensures n <= |current|
  {
    if |current| == 0 then 0
    else TopicMatches(current[..|current| - 1], candidate)
         + (if current[|current| - 1] in candidate then 1 else 0)
  }

  /** The positions of the requester's topic list that the candidate shares. */
  function SharedPositions(current: seq<string>, candidate: seq<string>): set<nat> {
    set i: nat | i < |current| && current[i] in candidate
  }

  /** The matches counted one position at a time equal the number of shared
      positions. */
  lemma {:induction false} TopicMatchesCountsPositions(current: seq<string>, candidate: seq<string>)
    ensures TopicMatches(current, candidate) == |SharedPositions(current, candidate)|
    decreases |current|
  {
    if |current| > 0 {
      var n := |current| - 1;
      var front := current[..n];
      TopicMatchesCountsPositions(front, candidate);
      var before := SharedPositions(front, candidate);
      if current[n] in candidate {
        assert SharedPositions(current, candidate) == before + {n};
        assert n !in before;
      } else {
        assert SharedPositions(current, candidate) == before;
      }
    }
  }

  function CityPoints(current: User, candidate: User): int {
    if Truthy(current.city) && candidate.city == current.city then CITY_POINTS else 0
  }

  function FoodHabitPoints(current: User, candidate: User): int {
    if Truthy(current.foodHabit) && candidate.foodHabit == current.foodHabit
    then FOOD_HABIT_POINTS else 0
  }

  function TopicPoints(current: User, candidate: User): int {
    if current.topics.Some? && candidate.topics.Some?
    then Min(TopicMatches(current.topics.value, candidate.topics.value), MAX_TOPIC_POINTS)
    else 0
  }

  /** The priority of `candidate` for `current`. */
  function Score(current: User, candidate: User): (r: int)
    ensures 0 <= r <= 8
  {
    CityPoints(current, candidate) + FoodHabitPoints(current, candidate)
    + TopicPoints(current, candidate)
  }

  /** Three points for the same city, two for the same food habit, and one
      per shared topic position up to three. The requester's city and food
      habit count only when set; topics count only when both users have a
      topic list. */
  lemma ScoreByComponents(current: User, candidate: User)
    ensures Score(current, candidate)
            == (if Truthy(current.city) && candidate.city == current.city then 3 else 0)
               + (if Truthy(current.foodHabit) && candidate.foodHabit == current.foodHabit
                  then 2 else 0)
               + (if current.topics.Some? && candidate.topics.Some?
                  then Min(|SharedPositions(current.topics.value, candidate.topics.value)|, 3)
                  else 0)
  {
    if current.topics.Some? && candidate.topics.Some? {
      TopicMatchesCountsPositions(current.topics.value, candidate.topics.value);
    }
  }

  /** The top score is reached exactly by a candidate in the requester's set
      city, with the requester's set food habit, sharing three topic
      positions or more. */
  lemma TopScore(current: User, candidate: User)
    ensures Score(current, candidate) == 8 <==>
              && Truthy(current.city) && candidate.city == current.city
              && Truthy(current.foodHabit) && candidate.foodHabit == current.foodHabit
              && current.topics.Some? && candidate.topics.Some?
              && TopicMatches(current.topics.value, candidate.topics.value) >= 3
  {
  }

  /** A topic the requester lists twice counts twice. */
  lemma RepeatedTopicCountsTwice()
    ensures TopicMatches(["pasta", "italian", "pasta"], ["pasta"]) == 2
  {
    assert ["pasta", "italian", "pasta"][..2] == ["pasta", "italian"];
    assert ["pasta", "italian"][..1] == ["pasta"];
    assert ["pasta"][..0] == [];
  }

  // ---------------------------------------------------------------------
  // The result
  // ---------------------------------------------------------------------

  /** A suggested user with the score it was given. */
  datatype Suggestion = Suggestion(id: UserId, user: User, score: int)

  predicate Distinct(xs: seq<UserId>) {
    forall i, j :: 0 <= i < j < |xs| ==> xs[i] != xs[j]
  }

  /** `order` lists every id of the store exactly once. It stands for the
      order the query and the random shuffle deliver the documents in. */
  predicate IsEnumeration(order: seq<UserId>, store: Store) {
    && (forall i :: 0 <= i < |order| ==> order[i] in store)
    && (forall k :: k in store ==> k in order)
    && Distinct(order)
  }

  lemma {:induction false} DistinctSize(xs: seq<UserId>)
    requires Distinct(xs)
    ensures |set x | x in xs| == |xs|
    decreases |xs|
  {
    if |xs| > 0 {
      var tail := xs[1..];
      DistinctSize(tail);
      assert (set x | x in xs) == {xs[0]} + (set x | x in tail);
      assert xs[0] !in (set x | x in tail);
    }
  }

  /** The eligible ids of `order`, in the order they come. */
  function EligibleInOrder(store: Store, userId: UserId, order: seq<UserId>): (r: seq<UserId>)
    requires userId in store
    requires forall i :: 0 <= i < |order| ==> order[i] in store
    ensures forall i :: 0 <= i < |r| ==> r[i] in order && Eligible(store, userId, r[i])
    ensures forall k :: k in order && Eligible(store, userId, k) ==> k in r
    ensures Distinct(order) ==> Distinct(r)
  {
    if |order| == 0 then []
    else
      var rest := EligibleInOrder(store, userId, order[1..]);
      if Eligible(store, userId, order[0]) then [order[0]] + rest else rest
  }

  /** The eligible ids of an enumeration are exactly the eligible users, each
      once. */
  lemma EligibleInOrderCovers(store: Store, userId: UserId, order: seq<UserId>)
    requires userId in store && IsEnumeration(order, store)
    ensures |EligibleInOrder(store, userId, order)| == |EligibleIds(store, userId)|
  {
    var r := EligibleInOrder(store, userId, order);
    assert (set x | x in r) == EligibleIds(store, userId);
    DistinctSize(r);
  }

  /** Each id of `ids` with its document and its score for `current`. */
  function Scored(store: Store, current: User, ids: seq<UserId>): (r: seq<Suggestion>)
    requires forall i :: 0 <= i < |ids| ==> ids[i] in store
    ensures |r| == |ids|
    ensures forall i :: 0 <= i < |r| ==>
              && r[i].id == ids[i]
              && r[i].user == store[ids[i]]
              && r[i].score == Score(current, store[ids[i]])
  {
    seq(|ids|, i requires 0 <= i < |ids| =>
          Suggestion(ids[i], store[ids[i]], Score(current, store[ids[i]])))
  }

  /** The first ten eligible ids of an enumeration, or all of them when
      there are fewer. */
  function Pick(store: Store, userId: UserId, order: seq<UserId>): (picked: seq<UserId>)
    requires userId in store && IsEnumeration(order, store)
    ensures |picked| == Min(MAX_SUGGESTIONS, |EligibleIds(store, userId)|)
    ensures forall i :: 0 <= i < |picked| ==> picked[i] in store && Eligible(store, userId, picked[i])
    ensures Distinct(picked)
    ensures |EligibleIds(store, userId)| <= MAX_SUGGESTIONS ==>
              forall k :: k in EligibleIds(store, userId) ==> k in picked
  {
    var eligible := EligibleInOrder(store, userId, order);
    EligibleInOrderCovers(store, userId, order);
    assert forall k :: k in EligibleIds(store, userId) ==> k in eligible;
    eligible[..Min(MAX_SUGGESTIONS, |eligible|)]
  }

  /** The suggestions for `userId`. Fails with "User not found" for an
      unknown requester. Otherwise returns ten of the users the query lets
      through, or all of them when there are fewer, each once, each with its
      score. The order of the result is left to `order`, which stands for
      the shuffle: any order the shuffle can produce is one of them. */
  function Suggest(store: Store, userId: UserId, order: seq<UserId>)
    : (r: Result<seq<Suggestion>, Error>)
    requires IsEnumeration(order, store)
    ensures r.Err? <==> userId !in store
    ensures r.Err? ==> r.error == UserNotFound
    ensures r.Ok? ==> |r.value| == Min(MAX_SUGGESTIONS, |EligibleIds(store, userId)|)
    ensures r.Ok? ==> forall i :: 0 <= i < |r.value| ==>
              && r.value[i].id in store
              && r.value[i].id != userId
              && r.value[i].id !in FollowingIds(store[userId])
              && r.value[i].user.status != BLOCKED
              && r.value[i].user.role != ADMIN
              && r.value[i].user == store[r.value[i].id]
              && r.value[i].score == Score(store[userId], r.value[i].user)
    ensures r.Ok? ==> forall i, j :: 0 <= i < j < |r.value| ==> r.value[i].id != r.value[j].id
    ensures r.Ok? && |EligibleIds(store, userId)| <= MAX_SUGGESTIONS ==>
              forall k :: k in EligibleIds(store, userId) ==>
                exists i :: 0 <= i < |r.value| && r.value[i].id == k
  {
    if userId !in store then Err(UserNotFound)
    else
      var picked := Pick(store, userId, order);
      var result := Scored(store, store[userId], picked);
      assert forall k :: k in picked ==> exists i :: 0 <= i < |result| && result[i].id == k;
      Ok(result)
  }

  // ---------------------------------------------------------------------
  // Every selection the shuffle can make is modelled
  // ---------------------------------------------------------------------

  /** Lists the elements of a finite set, each once. */
  lemma EnumerateSet(s: set<UserId>) returns (xs: seq<UserId>)
    ensures Distinct(xs)
    ensures forall x :: x in xs <==> x in s
    decreases |s|
  {
    if s == {} {
      xs := [];
    } else {
      var x :| x in s;
      var rest := EnumerateSet(s - {x});
      xs := [x] + rest;
    }
  }

  lemma {:induction false} EligibleInOrderConcat(store: Store, userId: UserId,
                                                 a: seq<UserId>, b: seq<UserId>)
    requires userId in store
    requires forall i :: 0 <= i < |a| ==> a[i] in store
    requires forall i :: 0 <= i < |b| ==> b[i] in store
    ensures EligibleInOrder(store, userId, a + b)
            == EligibleInOrder(store, userId, a) + EligibleInOrder(store, userId, b)
    decreases |a|
  {
    if |a| == 0 {
      assert a + b == b;
    } else {
      assert (a + b)[1..] == a[1..] + b;
      EligibleInOrderConcat(store, userId, a[1..], b);
    }
  }

  lemma {:induction false} EligibleInOrderKeepsEligible(store: Store, userId: UserId, a: seq<UserId>)
    requires userId in store
    requires forall i :: 0 <= i < |a| ==> a[i] in store && Eligible(store, userId, a[i])
    ensures EligibleInOrder(store, userId, a) == a
    decreases |a|
  {
    if |a| > 0 {
      EligibleInOrderKeepsEligible(store, userId, a[1..]);
      assert a == [a[0]] + a[1..];
    }
  }

  /** The model loses no outcome of the shuffle: any ten distinct eligible
      users (all of them, when there are fewer) in any order is the result
      for some order of the documents. */
  lemma AnySelectionReachable(store: Store, userId: UserId, picks: seq<UserId>)
    requires userId in store
    requires Distinct(picks)
    requires forall i :: 0 <= i < |picks| ==> picks[i] in store && Eligible(store, userId, picks[i])
    requires |picks| == Min(MAX_SUGGESTIONS, |EligibleIds(store, userId)|)
    ensures exists order :: IsEnumeration(order, store)
                            && Suggest(store, userId, order) == Ok(Scored(store, store[userId], picks))
  {
    var rest := EnumerateSet(store.Keys - (set x | x in picks));
    var order := picks + rest;
    forall i | 0 <= i < |rest| ensures rest[i] in store && rest[i] !in picks {
      assert rest[i] in rest;
    }
    assert IsEnumeration(order, store) by {
      forall i, j | 0 <= i < j < |order| ensures order[i] != order[j] {
        if j < |picks| {
        } else if i < |picks| {
          assert order[j] == rest[j - |picks|];
          assert order[i] == picks[i];
        } else {
          assert order[i] == rest[i - |picks|] && order[j] == rest[j - |picks|];
        }
      }
      forall k | k in store ensures k in order {
        if k !in picks {
          assert k in rest;
        }
      }
    }
    EligibleInOrderConcat(store, userId, picks, rest);
    EligibleInOrderKeepsEligible(store, userId, picks);
    EligibleInOrderCovers(store, userId, order);
    var eligible := EligibleInOrder(store, userId, order);
    assert eligible[..|picks|] == picks;
    assert Pick(store, userId, order) == picks;
    assert Suggest(store, userId, order) == Ok(Scored(store, store[userId], picks));
  }
}

=== FILE: user_model.dfy ===
/** The statics and methods of the user schema that are pure once the clock
    and the random token are parameters: the password-change check on a
    token, premium activation and the password-reset token. */
module UserModel {
  import opened Wrappers
  import opened UserTypes

  /** Thirty days, in milliseconds. */
  const PREMIUM_DURATION_MS: int := 30 * 24 * 60 * 60 * 1000

  /** Ten minutes, in milliseconds. */
  const RESET_TOKEN_LIFETIME_MS: int := 10 * 60 * 1000

  // ---------------------------------------------------------------------
  // Password change versus token issue time
  // ---------------------------------------------------------------------

  /** True when the password change, at `passwordChangedMs` milliseconds,
      lies strictly after `jwtIssuedAt`, the token's issue time in whole
      seconds. The change time is divided by 1000 without rounding. */
  predicate IsJwtIssuedBeforePasswordChanged(passwordChangedMs: int, jwtIssuedAt: int)
    // In integer milliseconds: the change lies after the first millisecond
    // of the token's issue second.
    ensures IsJwtIssuedBeforePasswordChanged(passwordChangedMs, jwtIssuedAt)
            <==> passwordChangedMs > jwtIssuedAt * 1000
  {
    passwordChangedMs as real / 1000.0 > jwtIssuedAt as real
  }

  /** The same comparison in whole seconds: the token is rejected exactly
      when the password changed in a later second than the token's, or in
      the same second but after its first millisecond. */
  lemma JwtCheckInSeconds(passwordChangedMs: int, jwtIssuedAt: int)
    ensures IsJwtIssuedBeforePasswordChanged(passwordChangedMs, jwtIssuedAt)
            <==> (|| passwordChangedMs / 1000 > jwtIssuedAt
                  || (passwordChangedMs / 1000 == jwtIssuedAt && passwordChangedMs % 1000 != 0))
  {
  }

  /** A token issued strictly before the password change is always rejected,
      whatever millisecond inside its second it was issued at. */
  lemma JwtRejectsTokenIssuedBeforeChange(passwordChangedMs: int, issuedMs: nat)
    requires issuedMs < passwordChangedMs
    ensures IsJwtIssuedBeforePasswordChanged(passwordChangedMs, issuedMs / 1000)
  {
  }

  /** A token issued in a later second than the password change is accepted. */
  lemma JwtAcceptsTokenOfLaterSecond(passwordChangedMs: nat, jwtIssuedAt: int)
    requires passwordChangedMs / 1000 < jwtIssuedAt
    ensures !IsJwtIssuedBeforePasswordChanged(passwordChangedMs, jwtIssuedAt)
  {
    JwtCheckInSeconds(passwordChangedMs, jwtIssuedAt);
  }

  /** The change and a token issued inside the same second: a change at the
      very first millisecond keeps the token, a change half a second in
      rejects it, even one issued 200 ms after the change. */
  lemma JwtSameSecondExamples()
    ensures !IsJwtIssuedBeforePasswordChanged(1_700_000_000_000, 1_700_000_000)
    ensures IsJwtIssuedBeforePasswordChanged(1_700_000_000_500, 1_700_000_000_700 / 1000)
  {
  }

  // ---------------------------------------------------------------------
  // Premium activation (the schema static)
  // ---------------------------------------------------------------------

  /** Marks the user premium until thirty days after `now`. Fails with
      "User not found" for an unknown id. No other user and no other field
      changes. */
  function ActivatePremium(store: Store, userId: UserId, now: int): (r: Result<Store, Error>)
    ensures userId !in store <==> r == Err(UserNotFound)
    ensures r.Ok? ==> r.value.Keys == store.Keys
    ensures r.Ok? ==> r.value[userId].isPremium
    ensures r.Ok? ==> r.value[userId].premiumExpiryDate == Some(now + 2_592_000_000)
    ensures r.Ok? ==> r.value[userId].(isPremium := store[userId].isPremium,
                                       premiumExpiryDate := store[userId].premiumExpiryDate)
                      == store[userId]
    ensures r.Ok? ==> forall k :: k in store && k != userId ==> r.value[k] == store[k]
  {
    if userId !in store then Err(UserNotFound)
    else
      var u := store[userId];
      Ok(store[userId := u.(isPremium := true,
                            premiumExpiryDate := Some(now + PREMIUM_DURATION_MS))])
  }

  /** The static as written. `save()` first runs the schema's pre-save hook,
      which hashes the document's `password`. The field is declared
      `select: 0`, so the document `findById` returns carries no password,
      the hash rejects `undefined` and the save throws. `passwordLoaded`
      says whether the document read carries the field; as written it never
      does. */
  function ActivatePremiumAsWritten(store: Store, userId: UserId, now: int, passwordLoaded: bool)
    : (r: Result<Store, Error>)
    ensures userId !in store ==> r == Err(UserNotFound)
    ensures userId in store && !passwordLoaded ==> r == Err(SaveFailed)
    ensures passwordLoaded ==> r == ActivatePremium(store, userId, now)
  {
    if userId !in store then Err(UserNotFound)
    else if !passwordLoaded then Err(SaveFailed)
    else ActivatePremium(store, userId, now)
  }

  /** As written, the static never activates anyone: every known user
      makes it throw, and nothing is stored. */
  lemma StaticActivationNeverSucceeds(store: Store, userId: UserId, now: int)
    ensures ActivatePremiumAsWritten(store, userId, now, false).Err?
    ensures userId in store ==> ActivatePremium(store, userId, now).Ok?
  {
  }

  // ---------------------------------------------------------------------
  // Password-reset token
  // ---------------------------------------------------------------------

  /** Sets the digest of a fresh reset token on the document, with an expiry
      ten minutes after `now`, and hands back the raw token. The random
      bytes are computed outside the model and passed in as `rawToken`;
      `hash` stands for the SHA-256 hex digest. */
  function GeneratePasswordResetToken(u: User, now: int, rawToken: string, hash: string -> string)
    : (r: (User, string))
    ensures r.1 == rawToken
    ensures r.0.passwordResetToken == Some(hash(r.1))
    ensures r.0.passwordResetExpires == Some(now + 600_000)
    ensures r.0.(passwordResetToken := u.passwordResetToken,
                 passwordResetExpires := u.passwordResetExpires) == u
  {
    (u.(passwordResetToken := Some(hash(rawToken)),
        passwordResetExpires := Some(now + RESET_TOKEN_LIFETIME_MS)),
     rawToken)
  }

  /** A new token supersedes the previous one: after two generations the
      document holds only the second token's digest and expiry, as if the
      first had never been issued. */
  lemma NewResetTokenSupersedes(u: User, first: int, second: int,
                                token1: string, token2: string, hash: string -> string)
    ensures var once := GeneratePasswordResetToken(u, first, token1, hash).0;
            GeneratePasswordResetToken(once, second, token2, hash)
            == GeneratePasswordResetToken(u, second, token2, hash)
  {
  }
}

=== FILE: user_types.dfy ===
/** The user document of the accounts collection, the store that holds the
    documents, and the errors the user handlers throw. */
module UserTypes {
  import opened Wrappers

  type UserId = string

  /** An entry of a user's `followers` or `following` list: a snapshot of the
      other user's identity taken when the follow happened. */
  datatype FollowEntry = FollowEntry(
    id: UserId,
    name: string,
    email: string,
    profilePicture: Option<string>)

  /** A user document. Times are integer milliseconds since the epoch, as a
      JavaScript `Date` holds them. A list field that is absent from the
      document is its schema default, the empty list. */
  datatype User = User(
    name: string,
    displayPicture: Option<string>,
    email: string,
    phone: string,
    role: string,
    status: string,
    bio: Option<string>,
    city: Option<string>,
    coverPicture: Option<string>,
    followers: seq<FollowEntry>,
    following: seq<FollowEntry>,
    foodHabit: Option<string>,
    sex: Option<string>,
    topics: Option<seq<string>>,
    report: int,
    isPremium: bool,
    premiumExpiryDate: Option<int>,
    passwordChangedAt: Option<int>,
    passwordResetToken: Option<string>,
    passwordResetExpires: Option<int>)

  /** The users collection, keyed by document id. */
  type Store = map<UserId, User>

  const ADMIN: string := "ADMIN"
  const BLOCKED: string := "BLOCKED"

  /** The errors thrown by the user handlers. */
  datatype Error =
    | UserNotFound
    | TargetUserIncomplete
    | UserIncomplete
    | ValidationFailed(reasons: seq<string>)
    | SaveFailed  // `save()` rejected: the pre-save hook could not hash the password

  /** JavaScript truthiness of an optional string: present and non-empty. */
  predicate Truthy(s: Option<string>) {
    s.Some? && s.value != ""
  }
}

=== FILE: user_update.dfy ===
/** `updateUser` and the service's `activatePremium`: a partial payload is
    spread over the stored document, the merged document is checked by the
    schema's validators, and it replaces the stored one. */
module UserUpdate {
  import opened Wrappers
  import opened UserTypes
  import opened Validators
  import UserModel

  /** One key of a partial payload: absent (`Keep`), or present with a value
      (`Put`). For an optional field `Put(None)` is a key present with the
      value `undefined`, which the spread copies over the stored value. */
  datatype Field<T> = Keep | Put(value: T)

  function Apply<T>(f: Field<T>, current: T): T {
    match f
    case Keep => current
    case Put(v) => v
  }

  /** The field `f` of a payload left `current` as `updated`. */
  predicate FieldAgrees<T(==)>(f: Field<T>, current: T, updated: T) {
    if f.Put? then updated == f.value else updated == current
  }

  /** A partial user document (`Partial<TUser>`). */
  datatype Patch = Patch(
    name: Field<string>,
    displayPicture: Field<Option<string>>,
    email: Field<string>,
    phone: Field<string>,
    role: Field<string>,
    status: Field<string>,
    bio: Field<Option<string>>,
    city: Field<Option<string>>,
    coverPicture: Field<Option<string>>,
    followers: Field<seq<FollowEntry>>,
    following: Field<seq<FollowEntry>>,
    foodHabit: Field<Option<string>>,
    sex: Field<Option<string>>,
    topics: Field<Option<seq<string>>>,
    report: Field<int>,
    isPremium: Field<bool>,
    premiumExpiryDate: Field<Option<int>>,
    passwordChangedAt: Field<Option<int>>)

  /** The empty payload `{}`. */
  const NoChange: Patch := Patch(Keep, Keep, Keep, Keep, Keep, Keep, Keep, Keep, Keep,
                                 Keep, Keep, Keep, Keep, Keep, Keep, Keep, Keep, Keep)

  /** Every key of the payload overrides the stored field; every key the
      payload lacks leaves the stored field as it was. The reset-token
      fields are not part of a payload and never change. */
  predicate Overrides(p: Patch, u: User, r: User) {
    && FieldAgrees(p.name, u.name, r.name)
    && FieldAgrees(p.displayPicture, u.displayPicture, r.displayPicture)
    && FieldAgrees(p.email, u.email, r.email)
    && FieldAgrees(p.phone, u.phone, r.phone)
    && FieldAgrees(p.role, u.role, r.role)
    && FieldAgrees(p.status, u.status, r.status)
    && FieldAgrees(p.bio, u.bio, r.bio)
    && FieldAgrees(p.city, u.city, r.city)
    && FieldAgrees(p.coverPicture, u.coverPicture, r.coverPicture)
    && FieldAgrees(p.followers, u.followers, r.followers)
    && FieldAgrees(p.following, u.following, r.following)
    && FieldAgrees(p.foodHabit, u.foodHabit, r.foodHabit)
    && FieldAgrees(p.sex, u.sex, r.sex)
    && FieldAgrees(p.topics, u.topics, r.topics)
    && FieldAgrees(p.report, u.report, r.report)
    && FieldAgrees(p.isPremium, u.isPremium, r.isPremium)
    && FieldAgrees(p.premiumExpiryDate, u.premiumExpiryDate, r.premiumExpiryDate)
    && FieldAgrees(p.passwordChangedAt, u.passwordChangedAt, r.passwordChangedAt)
    && r.passwordResetToken == u.passwordResetToken
    && r.passwordResetExpires == u.passwordResetExpires
  }

  /** `{ ...existing, ...payload }`. */
  function Merge(u: User, p: Patch): (r: User)
    ensures Overrides(p, u, r)
  {
    User(
      Apply(p.name, u.name),
      Apply(p.displayPicture, u.displayPicture),
      Apply(p.email, u.email),
      Apply(p.phone, u.phone),
      Apply(p.role, u.role),
      Apply(p.status, u.status),
      Apply(p.bio, u.bio),
      Apply(p.city, u.city),
      Apply(p.coverPicture, u.coverPicture),
      Apply(p.followers, u.followers),
      Apply(p.following, u.following),
      Apply(p.foodHabit, u.foodHabit),
      Apply(p.sex, u.sex),
      Apply(p.topics, u.topics),
      Apply(p.report, u.report),
      Apply(p.isPremium, u.isPremium),
      Apply(p.premiumExpiryDate, u.premiumExpiryDate),
      Apply(p.passwordChangedAt, u.passwordChangedAt),
      u.passwordResetToken,
      u.passwordResetExpires)
  }

  /** The override relation pins the merged document down completely. */
  lemma OverridesIsFunctional(p: Patch, u: User, r1: User, r2: User)
    requires Overrides(p, u, r1) && Overrides(p, u, r2)
    ensures r1 == r2
  {
  }

  lemma MergeNoChange(u: User)
    ensures Merge(u, NoChange) == u
  {
  }

  /** Spreading the same payload a second time changes nothing more. */
  lemma MergeIdempotent(u: User, p: Patch)
    ensures Merge(Merge(u, p), p) == Merge(u, p)
  {
  }

  /** Two payloads spread one after the other are one payload in which the
      later one's keys win. */
  function Then(p: Patch, q: Patch): Patch {
    Patch(
      if q.name.Put? then q.name else p.name,
      if q.displayPicture.Put? then q.displayPicture else p.displayPicture,
      if q.email.Put? then q.email else p.email,
      if q.phone.Put? then q.phone else p.phone,
      if q.role.Put? then q.role else p.role,
      if q.status.Put? then q.status else p.status,
      if q.bio.Put? then q.bio else p.bio,
      if q.city.Put? then q.city else p.city,
      if q.coverPicture.Put? then q.coverPicture else p.coverPicture,
      if q.followers.Put? then q.followers else p.followers,
      if q.following.Put? then q.following else p.following,
      if q.foodHabit.Put? then q.foodHabit else p.foodHabit,
      if q.sex.Put? then q.sex else p.sex,
      if q.topics.Put? then q.topics else p.topics,
      if q.report.Put? then q.report else p.report,
      if q.isPremium.Put? then q.isPremium else p.isPremium,
      if q.premiumExpiryDate.Put? then q.premiumExpiryDate else p.premiumExpiryDate,
      if q.passwordChangedAt.Put? then q.passwordChangedAt else p.passwordChangedAt)
  }

  lemma MergeThen(u: User, p: Patch, q: Patch)
    ensures Merge(Merge(u, p), q) == Merge(u, Then(p, q))
  {
  }

  // ---------------------------------------------------------------------
  // The validators the update runs
  // ---------------------------------------------------------------------

  const EMAIL_REQUIRED: string := "Path `email` is required."
  const EMAIL_MESSAGE: string := "Please fill a valid email address"
  const PHONE_REQUIRED: string := "Phone number is required"
  const PHONE_MESSAGE: string := "Please enter a valid phone number"

  /** The email and the phone pass their `required` and `match` validators. */
  predicate PassesValidators(u: User) {
    && u.email != "" && IsValidEmail(u.email)
    && u.phone != "" && IsValidPhone(u.phone)
  }

  /** The verdict on one required string path with a pattern: `required`
      refuses the empty string, and `match` lets the empty string through
      without testing it, so each path reports at most one message. */
  function PathErrors(value: string, matches: bool, requiredMessage: string, matchMessage: string)
    : (errs: seq<string>)
    ensures errs == [] <==> value != "" && matches
    ensures |errs| <= 1
    ensures value == "" ==> errs == [requiredMessage]
    ensures value != "" && !matches ==> errs == [matchMessage]
  {
    if value == "" then [requiredMessage]
    else if matches then []
    else [matchMessage]
  }

  /** The messages of the validators the email and the phone fail, in
      schema order. */
  function ValidationErrors(u: User): (errs: seq<string>)
    ensures errs == [] <==> PassesValidators(u)
    ensures |errs| <= 2
    ensures EMAIL_REQUIRED in errs <==> u.email == ""
    ensures EMAIL_MESSAGE in errs <==> u.email != "" && !IsValidEmail(u.email)
    ensures PHONE_REQUIRED in errs <==> u.phone == ""
    ensures PHONE_MESSAGE in errs <==> u.phone != "" && !IsValidPhone(u.phone)
  {
    PathErrors(u.email, IsValidEmail(u.email), EMAIL_REQUIRED, EMAIL_MESSAGE)
    + PathErrors(u.phone, IsValidPhone(u.phone), PHONE_REQUIRED, PHONE_MESSAGE)
  }

  // ---------------------------------------------------------------------
  // updateUser
  // ---------------------------------------------------------------------

  /** Merges `p` into the stored user and stores the result, which it also
      returns. Fails with "User not found" for an unknown id, and with a
      validation error, leaving the store untouched, when the merged
      document fails the email or phone validators. */
  function UpdateUser(store: Store, userId: UserId, p: Patch): (r: Result<(Store, User), Error>)
    ensures userId !in store ==> r == Err(UserNotFound)
    ensures userId in store ==>
              (r.Ok? <==> PassesValidators(Merge(store[userId], p)))
    ensures r.Err? && userId in store ==> r.error.ValidationFailed?
    ensures r.Ok? ==> Overrides(p, store[userId], r.value.1)
    ensures r.Ok? ==> r.value.0.Keys == store.Keys
    ensures r.Ok? ==> r.value.0[userId] == r.value.1
    ensures r.Ok? ==> forall k :: k in store && k != userId ==> r.value.0[k] == store[k]
  {
    if userId !in store then Err(UserNotFound)
    else
      var merged := Merge(store[userId], p);
      var errs := ValidationErrors(merged);
      if errs != [] then Err(ValidationFailed(errs))
      else Ok((store[userId := merged], merged))
  }

  /** The empty payload rewrites a valid document with itself. */
  lemma UpdateWithNoChange(store: Store, userId: UserId)
    requires userId in store
    requires PassesValidators(store[userId])
    ensures UpdateUser(store, userId, NoChange) == Ok((store, store[userId]))
  {
    MergeNoChange(store[userId]);
    assert store[userId := store[userId]] == store;
  }

  // ---------------------------------------------------------------------
  // activatePremium (the service)
  // ---------------------------------------------------------------------

  /** `{ isPremium: true, premiumExpiryDate: now + 30 days }`. */
  function PremiumPatch(now: int): Patch {
    NoChange.(isPremium := Put(true),
              premiumExpiryDate := Put(Some(now + UserModel.PREMIUM_DURATION_MS)))
  }

  /** Activates premium through `UpdateUser`, so it shares its errors. */
  function ActivatePremium(store: Store, userId: UserId, now: int): (r: Result<(Store, User), Error>)
    ensures userId !in store ==> r == Err(UserNotFound)
    ensures userId in store ==> (r.Ok? <==> PassesValidators(store[userId]))
    ensures r.Ok? ==> r.value.1.isPremium
                      && r.value.1.premiumExpiryDate == Some(now + 2_592_000_000)
    ensures r.Ok? ==> r.value.0.Keys == store.Keys && r.value.0[userId] == r.value.1
    ensures r.Ok? ==> forall k :: k in store && k != userId ==> r.value.0[k] == store[k]
  {
    UpdateUser(store, userId, PremiumPatch(now))
  }

  /** On a document that passes its validators the service's activation and
      the schema static store the same thing. */
  lemma ActivatePremiumAgrees(store: Store, userId: UserId, now: int)
    requires userId in store
    requires PassesValidators(store[userId])
    ensures ActivatePremium(store, userId, now).Ok?
    ensures UserModel.ActivatePremium(store, userId, now) == Ok(ActivatePremium(store, userId, now).value.0)
  {
  }
}

=== FILE: validators.dfy ===
/** The two regular-expression validators of the user schema, written as
    string predicates, each proved equal to a definition that follows the
    shape of its pattern.

    - phone: `^\+?[0-9]\d{1,14}$`
    - email: `^([\w-\.]+@([\w-]+\.)+[\w-]{2,4})?$`

    The patterns carry no `u` flag, so `\w` and `\d` are the ASCII classes. */
module Validators {

  // ---------------------------------------------------------------------
  // Character classes
  // ---------------------------------------------------------------------

  /** `\d` and `[0-9]`. */
  predicate IsDigit(c: char) {
    '0' <= c <= '9'
  }

  /** `\w`: ASCII letters, digits and underscore. */
  predicate IsWordChar(c: char) {
    'A' <= c <= 'Z' || 'a' <= c <= 'z' || IsDigit(c) || c == '_'
  }

  /** `[\w-]`: a character of a domain label or of the final segment. */
  predicate IsLabelChar(c: char) {
    IsWordChar(c) || c == '-'
  }

  /** `[\w-\.]`: a character of the local part. */
  predicate IsLocalChar(c: char) {
    IsLabelChar(c) || c == '.'
  }

  predicate AllDigits(s: string) {
    forall i :: 0 <= i < |s| ==> IsDigit(s[i])
  }

  // ---------------------------------------------------------------------
  // Phone
  // ---------------------------------------------------------------------

  /** The phone validator: strip one optional leading '+', then demand 2 to
      15 ASCII digits. A leading zero is a digit like any other. */
  predicate IsValidPhone(s: string)
    ensures IsValidPhone(s) ==> 2 <= |s| <= 16
    ensures IsValidPhone(s) ==> IsDigit(s[0]) || s[0] == '+'
    ensures IsValidPhone(s) ==> forall i :: 1 <= i < |s| ==> IsDigit(s[i])
  {
    var digits := if |s| > 0 && s[0] == '+' then s[1..] else s;
    2 <= |digits| <= 15 && AllDigits(digits)
  }

  /** `[0-9]\d{1,14}`: one digit followed by one to fourteen more. */
  predicate IsDigitRun(d: string) {
    |d| >= 1 && IsDigit(d[0]) && 1 <= |d[1..]| <= 14 && AllDigits(d[1..])
  }

  /** The phone pattern read alternative by alternative: with the '+' or
      without it. */
  predicate PhonePattern(s: string) {
    (|s| >= 1 && s[0] == '+' && IsDigitRun(s[1..])) || IsDigitRun(s)
  }

  lemma PhoneMatchesPattern(s: string)
    ensures IsValidPhone(s) <==> PhonePattern(s)
  {
    if |s| > 0 && s[0] == '+' {
      assert !IsDigit(s[0]);
      assert !IsDigitRun(s);
    }
  }

  lemma PhoneExamples()
    ensures IsValidPhone("+8801712345678")
    ensures IsValidPhone("01712345678")
    ensures IsValidPhone("12")
    ensures !IsValidPhone("1")
    ensures !IsValidPhone("+1")
    ensures !IsValidPhone("+")
    ensures !IsValidPhone("")
    ensures !IsValidPhone("1234567890123456")
    ensures !IsValidPhone("++12")
    ensures !IsValidPhone("12-34")
  {
    assert !IsDigit("++12"[1]);
    assert !IsDigit("12-34"[2]);
  }

  // ---------------------------------------------------------------------
  // Email: the scanner
  // ---------------------------------------------------------------------

  /** The position of the first `c` in `s`, or `|s|` when there is none. */
  function IndexOf(s: string, c: char): (i: nat)
    ensures i <= |s|
    ensures forall k :: 0 <= k < i ==> s[k] != c
    ensures i < |s| ==> s[i] == c
  {
    if |s| == 0 then 0
    else if s[0] == c then 0
    else 1 + IndexOf(s[1..], c)
  }

  /** The position of the last `c` in `s`, or -1 when there is none. */
  function LastIndexOf(s: string, c: char): (i: int)
    ensures -1 <= i < |s|
    ensures forall k :: i < k < |s| ==> s[k] != c
    ensures 0 <= i ==> s[i] == c
  {
    if |s| == 0 then -1
    else if s[|s| - 1] == c then |s| - 1
    else LastIndexOf(s[..|s| - 1], c)
  }

  /** `[\w-\.]+`. */
  predicate IsLocalPart(l: string) {
    |l| >= 1 && forall i :: 0 <= i < |l| ==> IsLocalChar(l[i])
  }

  /** `[\w-]{2,4}`. */
  predicate IsTopLevel(t: string) {
    2 <= |t| <= 4 && forall i :: 0 <= i < |t| ==> IsLabelChar(t[i])
  }

  /** A run of labels each closed by a dot, checked character by character:
      it starts with a label character, ends with a dot, holds only label
      characters and dots, and never has two dots in a row. */
  predicate IsLabelList(x: string) {
    && |x| >= 2
    && x[0] != '.'
    && x[|x| - 1] == '.'
    && (forall i :: 0 <= i < |x| ==> IsLocalChar(x[i]))
    && (forall i :: 0 <= i < |x| - 1 && x[i] == '.' ==> x[i + 1] != '.')
  }

  /** What follows the '@': the labels up to the last dot, then the final
      segment. */
  predicate IsDomain(d: string) {
    var dot := LastIndexOf(d, '.');
    0 <= dot && IsLabelList(d[..dot + 1]) && IsTopLevel(d[dot + 1..])
  }

  /** The email validator. The whole pattern is one optional group, so the
      empty string is accepted; otherwise the first '@' splits the address
      into local part and domain. */
  predicate IsValidEmail(s: string)
    ensures IsValidEmail(s) && s != [] ==> |s| >= 6 && '@' in s
    ensures IsValidEmail(s) && s != [] ==> s[0] != '@' && IsLabelChar(s[|s| - 1])
  {
    || s == []
    || (var at := IndexOf(s, '@');
        at < |s| && IsLocalPart(s[..at]) && IsDomain(s[at + 1..]))
  }

  // ---------------------------------------------------------------------
  // Email: the pattern
  // ---------------------------------------------------------------------

  /** `[\w-]+`. */
  predicate IsLabel(l: string) {
    |l| >= 1 && forall i :: 0 <= i < |l| ==> IsLabelChar(l[i])
  }

  /** `([\w-]+\.)+`: one label and its dot, then optionally more of them. */
  ghost predicate LabelsPattern(x: string)
    decreases |x|
  {
    exists k :: 0 < k < |x| && x[k] == '.' && IsLabel(x[..k])
                && (k + 1 == |x| || LabelsPattern(x[k + 1..]))
  }

  /** The email pattern: empty, or local part, '@', dotted labels and a
      final segment, in that order. */
  ghost predicate EmailPattern(s: string) {
    || s == []
    || exists i, j :: 0 <= i && i + 1 <= j <= |s| && s[i] == '@'
                      && IsLocalPart(s[..i])
                      && LabelsPattern(s[i + 1..j])
                      && IsTopLevel(s[j..])
  }

  /** A scanned label list splits at its first dot into a label and either
      nothing or another label list. */
  lemma {:induction false} LabelListIsPattern(x: string)
    requires IsLabelList(x)
    ensures LabelsPattern(x)
    decreases |x|
  {
    var k := IndexOf(x, '.');
    assert k < |x|;
    assert 0 < k;
    assert IsLabel(x[..k]) by {
      forall i | 0 <= i < k ensures IsLabelChar(x[..k][i]) {
        assert x[..k][i] == x[i] != '.';
        assert IsLocalChar(x[i]);
      }
    }
    if k + 1 < |x| {
      var rest := x[k + 1..];
      assert rest[0] != '.';
      assert rest[|rest| - 1] == '.';
      assert IsLabelList(rest) by {
        forall i | 0 <= i < |rest| ensures IsLocalChar(rest[i]) {
          assert rest[i] == x[k + 1 + i];
        }
        forall i | 0 <= i < |rest| - 1 && rest[i] == '.' ensures rest[i + 1] != '.' {
          assert rest[i] == x[k + 1 + i];
          assert rest[i + 1] == x[k + 1 + i + 1];
        }
      }
      LabelListIsPattern(rest);
    }
    assert 0 < k < |x| && x[k] == '.' && IsLabel(x[..k])
           && (k + 1 == |x| || LabelsPattern(x[k + 1..]));
  }

  /** A match of `([\w-]+\.)+` passes the character scan. */
  lemma {:induction false} PatternIsLabelList(x: string)
    requires LabelsPattern(x)
    ensures IsLabelList(x)
    decreases |x|
  {
    var k :| 0 < k < |x| && x[k] == '.' && IsLabel(x[..k])
             && (k + 1 == |x| || LabelsPattern(x[k + 1..]));
    forall i | 0 <= i < k ensures IsLabelChar(x[i]) {
      assert x[i] == x[..k][i];
    }
    if k + 1 < |x| {
      var rest := x[k + 1..];
      PatternIsLabelList(rest);
      forall i | 0 <= i < |rest| ensures x[k + 1 + i] == rest[i] { }
    }
  }

  lemma LabelListMatchesPattern(x: string)
    ensures IsLabelList(x) <==> LabelsPattern(x)
  {
    if IsLabelList(x) {
      LabelListIsPattern(x);
    }
    if LabelsPattern(x) {
      PatternIsLabelList(x);
    }
  }

  /** The scanner's split of an accepted address is a match of the pattern. */
  lemma EmailScannerIsPattern(s: string)
    requires s != [] && IsValidEmail(s)
    ensures EmailPattern(s)
  {
    var at := IndexOf(s, '@');
    var d := s[at + 1..];
    var dot := LastIndexOf(d, '.');
    var j := at + 1 + dot + 1;
    assert s[at + 1..j] == d[..dot + 1];
    assert s[j..] == d[dot + 1..];
    LabelListMatchesPattern(d[..dot + 1]);
    assert 0 <= at && at + 1 <= j <= |s| && s[at] == '@'
           && IsLocalPart(s[..at])
           && LabelsPattern(s[at + 1..j])
           && IsTopLevel(s[j..]);
  }

  /** Any match of the pattern splits where the scanner splits: at the first
      '@' and at the last dot after it. */
  lemma EmailPatternIsScanner(s: string, i: int, j: int)
    requires 0 <= i && i + 1 <= j <= |s| && s[i] == '@'
    requires IsLocalPart(s[..i])
    requires LabelsPattern(s[i + 1..j])
    requires IsTopLevel(s[j..])
    ensures IsValidEmail(s)
  {
    var at := IndexOf(s, '@');
    assert at == i;
    var d := s[i + 1..];
    var labels := s[i + 1..j];
    LabelListMatchesPattern(labels);
    var dot := LastIndexOf(d, '.');
    assert d[j - i - 2] == labels[|labels| - 1];
    assert dot == j - i - 2;
    assert d[..dot + 1] == labels;
    assert d[dot + 1..] == s[j..];
  }

  lemma EmailMatchesPattern(s: string)
    ensures IsValidEmail(s) <==> EmailPattern(s)
  {
    if s != [] {
      if IsValidEmail(s) {
        EmailScannerIsPattern(s);
      }
      if EmailPattern(s) {
        var i, j :| 0 <= i && i + 1 <= j <= |s| && s[i] == '@'
                    && IsLocalPart(s[..i])
                    && LabelsPattern(s[i + 1..j])
                    && IsTopLevel(s[j..]);
        EmailPatternIsScanner(s, i, j);
      }
    }
  }

  lemma EmailEmptyAccepted()
    ensures IsValidEmail("")
  {
  }

  lemma EmailExamples()
    ensures EmailPattern("a@b.co")
    ensures !IsValidEmail("a@b.c")
    ensures !IsValidEmail("@b.co")
    ensures !IsValidEmail("a@.co")
  {
    assert "a@b.co"[2..4] == "b.";
    assert "b."[..1] == "b";
    assert LabelsPattern("b.");
    assert "a@b.co"[..1] == "a";
    assert "a@b.co"[4..] == "co";
    assert IndexOf("a@b.c", '@') == 1;
    assert LastIndexOf("b.c", '.') == 1;
    assert IndexOf("@b.co", '@') == 0;
    assert IndexOf("a@.co", '@') == 1;
    assert LastIndexOf(".co", '.') == 0;
  }
}

=== FILE: wrappers.dfy ===
/** Helper datatypes shared by every module of the model. */
module Wrappers {

  /** A value that may be absent: the model's stand-in for an optional
      (possibly `undefined`) field of a document. */
  datatype Option<+T> = None | Some(value: T)

  /** The outcome of an operation that can throw: `Ok` carries the value,
      `Err` the error that was thrown. */
  datatype Result<+T, +E> = Ok(value: T) | Err(error: E)
}
